=== FILE: README.md ===
# PU-Marketplace core, modelled in Dafny

PU-Marketplace is a campus marketplace. Sellers list products. Visitors
browse, search and filter them, like them, and read seller comments.
Admins manage user roles, sponsored products and the home-page carousel.
This project models the client-side logic that decides what each screen
shows and which store writes it issues. Every operation is a pure function
over immutable data. Every backend reply is an input, either
`Reply<T>` (`Ok(value)` or `Err(message)`) or `Option<T>`. The few store
effects the logic depends on are small functions of their own: the like
table, the role table, the comment table, and the product flag updates.

Modules, one per source unit:

- `Wrappers`: `Option` and `Reply`.
- `Seqs`: order-preserving subsequence, with reflexivity, transitivity and
  the multiset bound.
- `Text`: ASCII `toLowerCase`, `includes`, and ECMAScript `trim` over the
  full WhiteSpace and LineTerminator set.
- `Categories`: the five product categories and their default.
- `AuthContext`: session and role state, `hasRole`, and the `useAuth` guard.
- `Products`: the product record and the two per-product flag updates.
- `StableSort`: a stable sort by an integer key. Section 22.1.3.27 of
  ECMA-262 (2019 and later) requires `Array.prototype.sort` to be stable.
- `Listing`: the home page's filter pipeline (search, category, mode).
- `IndexPage`: carousel slide arithmetic and the seller e-mail join.
- `ProductCard`: like state, the admin badge, and the card's controls.
- `ProductDetails`: the comment panel, the seller check and the 10-comment
  quota.
- `DashboardCommon`: the page gate shared by both dashboards, and the image
  upload size caps.
- `SellerDashboard`: the product form, create and edit, and the sold toggle.
- `AdminDashboard`: role grouping and editing, sponsorship, and the carousel
  form.
- `AuthPage`: the sign-in, sign-up and magic-link form.
- `Navigation`: navbar and sidebar links.
- `Theme`: the dark and saffron theme toggle.

Behaviour the model keeps as the code has it:

- Both dashboards start loading data when a user is present, even while
  authentication is still loading. `SellerGate` and `AdminGate` say so:
  `LoadData` holds exactly when a user is present and either is admitted or
  `authLoading` is true.
- `checkSellerRole` returns early without a user. A stale `isSeller` flag
  therefore survives sign-out. Submission is still refused, because
  `handleSubmitComment` checks the user first.
- `handleEdit` keeps an image file chosen earlier in the session.
- A stored theme is adopted without validation. A stored value that holds
  whitespace makes `classList.add` throw after both theme classes were
  removed, so the root is left with neither (`Theme.SpacedValueStripsThemeClasses`).
- An admin may revoke their own admin role (`SelfRevocationLocksOut`).
- The comment panel itself does not check whether the product is
  available. Only the card's Comments button is disabled for sold products.
  The model follows the code here.
- Comment and like counts are advisory client-side checks. The model states
  them for sequential use only.

## Model

| member | source | states |
|---|---|---|
| Text.Lower | src/pages/Index.tsx:101-102 | lower-casing keeps the length; each character is lowered on its own, A-Z to a-z, and everything else is left alone |
| Text.IncludesIffOccurs | src/pages/Index.tsx:101-102 | `includes` holds exactly when the needle occurs at some index of the text; the empty needle occurs everywhere |
| Text.Trim | src/components/ProductDetails.tsx:96 | the trimmed comment is a contiguous slice of the input with only whitespace cut from both ends; it is empty exactly when the input is all whitespace, and otherwise starts and ends with a non-space |
| Seqs.SubsequenceTrans | src/pages/Index.tsx:97-108 | filtering twice still keeps an order-preserving subsequence of the product list |
| Seqs.SubsequenceMultiset | src/pages/Index.tsx:97-108 | a filtered list never holds more copies of any product than the input |
| Categories.Parse | src/constants/categories.ts:1-9 | a string reads back as a category only if it is that category's name, and is refused exactly when it is not one of the five listed names |
| Categories.CategoryListShape | src/constants/categories.ts:1-9 | there are exactly five distinct category names, every category's name is listed, and a string is listed exactly when it parses |
| Categories.ParseName | src/constants/categories.ts:1-9 | every category round-trips through its stored name |
| Categories.DefaultIsFirst | src/pages/SellerDashboard.tsx:43 | the form's default category, "Study Material", is the first listed category |
| AuthContext.HasRole | src/contexts/AuthContext.tsx:170 | `hasRole(r)` holds exactly when `r` is among the loaded roles |
| AuthContext.FetchUserRoles | src/contexts/AuthContext.tsx:29-40 | a failed role query yields no roles; a successful one yields the returned roles |
| AuthContext.SessionChanged | src/contexts/AuthContext.tsx:44-59 | an auth-state event sets the user from the session and ends loading; a session without a user clears the roles at once, and one with a user keeps the old roles until the fetch lands |
| AuthContext.InitialSession | src/contexts/AuthContext.tsx:63-72 | the initial session check sets the user and ends loading but never touches the roles itself |
| AuthContext.RolesFetched | src/contexts/AuthContext.tsx:50-53 | a landed role fetch changes neither the user nor loading; a successful fetch makes its roles the user's roles, and a failed one leaves the user with no role |
| AuthContext.LastFetchDecides | src/contexts/AuthContext.tsx:44-72 | after any run of events, once a successful role fetch lands and no later fetch or sign-out replaces it, the user holds a role exactly when that fetch returned it |
| AuthContext.UseAuth | src/contexts/AuthContext.tsx:191-197 | `useAuth` fails with the provider message exactly outside a provider, and otherwise returns the provider's state |
| AuthContext.LoadingEndsForGood | src/contexts/AuthContext.tsx:58 | once loading has ended, no sequence of session events or role fetches turns it back on |
| AuthContext.SignedOutHasNoRoles | src/contexts/AuthContext.tsx:54-56 | after a sign-out event there is no user and `hasRole` is false for every role |
| Products.SetAvailability | src/pages/SellerDashboard.tsx:200-203 | the availability update changes only the product with that id, and only its availability |
| Products.SetSponsored | src/pages/AdminDashboard.tsx:161-164 | the sponsorship update changes only the product with that id, and only its sponsored flag |
| StableSort.SortBy | src/pages/Index.tsx:129-132 | sorting is a permutation of its input, ordered by the key |
| StableSort.SortByStable | src/pages/Index.tsx:129-132 | for every key value, the products carrying it come out in the order they went in |
| Listing.Select | src/pages/Index.tsx:100-128 | each filter pass keeps, in input order, exactly the products its criterion accepts, each as many times as it occurs in the input, and drops the others entirely |
| Listing.SelectKeepsAll | src/pages/Index.tsx:100-128 | a pass whose criterion accepts every product returns the list unchanged |
| Listing.AvailabilityPartition | src/pages/Index.tsx:115-118 | "available" and "sold" split any product list into two disjoint parts whose sizes and contents add up to the list |
| Listing.ParseMode | src/pages/Index.tsx:115-133 | any filter value other than the six named ones leaves the list unfiltered and unsorted |
| Listing.SearchPassSpec | src/pages/Index.tsx:99-104 | an empty query keeps everything; otherwise a product is kept exactly when its lower-cased title or description contains the lower-cased query, in input order |
| Listing.CategoryPassSpec | src/pages/Index.tsx:106-108 | "all" keeps everything; otherwise a product is kept exactly when its category is the selected one, in input order |
| Listing.TimeWindows | src/pages/Index.tsx:111-128 | "today" keeps exactly the products created at or after local midnight, and "this-week" those created at or after 604800000 ms before now |
| Listing.PriceLowHighSpec | src/pages/Index.tsx:131-132 | "price-low-high" is a permutation in non-decreasing price that keeps equal-priced products in input order |
| Listing.PriceHighLowSpec | src/pages/Index.tsx:129-130 | "price-high-low" is a permutation in non-increasing price that keeps equal-priced products in input order |
| Listing.ModeShape | src/pages/Index.tsx:115-133 | the non-sorting modes only drop products, the sorting modes only reorder them, and the default mode changes nothing |
| Listing.FilterProductsShape | src/pages/Index.tsx:95-136 | the whole pipeline never invents products, preserves order unless a price sort is chosen, and with no query, category "all" and mode "all" shows every product |
| IndexPage.JsRemainder | src/pages/Index.tsx:143 | the `%` operator truncates toward zero: for a non-negative dividend it is the usual remainder, and for a negative one it lies in (-n, 0] |
| IndexPage.NextSlide | src/pages/Index.tsx:53-55 | the next slide stays in range and wraps from the last slide to the first |
| IndexPage.PrevSlide | src/pages/Index.tsx:142-144 | the previous slide stays in range and wraps from the first slide to the last |
| IndexPage.PrevUndoesNext | src/pages/Index.tsx:138-144 | previous and next undo each other on every carousel of at least one slide |
| IndexPage.EmailIndex | src/pages/Index.tsx:74 | the id-to-email map has exactly the profile ids as keys, and the last profile with an id wins |
| IndexPage.EmailIndexOfUnique | src/pages/Index.tsx:74 | with unique profile ids, every profile's id maps to its own e-mail |
| IndexPage.SellerEmail | src/pages/Index.tsx:79 | a product gets a seller e-mail exactly when its seller id is a profile id whose e-mail is non-empty, and then it gets that e-mail |
| IndexPage.JoinSellerEmails | src/pages/Index.tsx:77-80 | a missing product reply gives an empty list; otherwise every product is kept in place with only its seller e-mail set, and a missing profile reply leaves every e-mail unset |
| IndexPage.JoinFindsProfile | src/pages/Index.tsx:74-80 | with unique profile ids, a product's seller e-mail is its seller's profile e-mail when that profile exists and the e-mail is non-empty, and is unset otherwise |
| ProductCard.LikersOf | src/components/ProductCard.tsx:47-50 | the fetched likers are exactly the users with a like row for this product, each listed once per row |
| ProductCard.AdminsAmong | src/components/ProductCard.tsx:62-66 | the admin query returns exactly the likers who hold the admin role |
| ProductCard.AdminsAmongNonEmpty | src/components/ProductCard.tsx:68 | the admin query is non-empty exactly when some liker is an admin |
| ProductCard.FetchLikes | src/components/ProductCard.tsx:45-70 | the count is the number of likes, or 0 without a reply; a signed-in viewer's heart is set exactly when they are among the likers; the admin flag is recomputed only when there is at least one like and is kept otherwise |
| ProductCard.AdminBadgeOutlivesLastLike | src/components/ProductCard.tsx:61-69 | an admin who unlikes the only like leaves the count at 0 with the admin badge still on |
| ProductCard.FetchLikesFixed | src/components/ProductCard.tsx:45-70 | as the refetch, except the admin flag is set exactly when some liker is an admin, so a count of 0 never shows the badge |
| ProductCard.HandleLike | src/components/ProductCard.tsx:72-106 | a signed-out click only asks for sign-in; otherwise a liked heart deletes the viewer's row and an empty one inserts it; only a successful write flips the heart and refetches |
| ProductCard.RemoveLike | src/components/ProductCard.tsx:85-89 | the unlike delete removes every copy of the viewer's like row for this product and keeps each other row as many times as it occurred |
| ProductCard.ApplyLikeWrite | src/components/ProductCard.tsx:97-99 | inserting a like succeeds exactly when the row is not already present; deleting always succeeds |
| ProductCard.Click | src/components/ProductCard.tsx:72-106 | a click followed by the corrected refetch (`FetchLikesFixed`, see Findings) keeps the heart, the count and the badge in step with the like table |
| ProductCard.RemoveAbsentAppended | src/components/ProductCard.tsx:85-99 | deleting a like just inserted restores the table exactly |
| ProductCard.ClickAsWritten | src/components/ProductCard.tsx:45-106 | a click followed by the refetch as written keeps the heart and the count in step with the like table; the badge follows the table while some like remains and keeps its old value once none does; a failed write changes nothing |
| ProductCard.LikeStepAsWritten | src/components/ProductCard.tsx:45-106 | on an unliked, in-step card a click appends the viewer's like, sets the heart and keeps the heart and count in step; on a product nobody liked, the badge then says whether the viewer is an admin |
| ProductCard.UnlikeStepAsWritten | src/components/ProductCard.tsx:45-106 | unliking a like just added restores the table and the count and clears the heart; the badge follows the remaining likers, or keeps its value when none remain |
| ProductCard.LikeThenUnlikeAsWritten | src/components/ProductCard.tsx:45-106 | with the refetch as written, like then unlike restores the like table, the heart and the count; the badge is restored while others still like the product, and otherwise ends up saying whether the viewer is an admin |
| ProductCard.LikeThenUnlike | src/components/ProductCard.tsx:83-105 | with the corrected refetch, like followed by unlike ends in the original card state, badge included, and the original like table |
| ProductCard.CardControlsSpec | src/components/ProductCard.tsx:176-260 | like, comments and contact are disabled exactly for sold products; contact appears exactly for non-owners of a product with a seller e-mail; the toggle, edit and delete controls appear exactly for owners, and the toggle reads "Mark as Sold" exactly when the product is available |
| ProductDetails.DisplayName | src/components/ProductDetails.tsx:78-80 | an author shows as the full name when non-empty, otherwise as the e-mail when non-empty, otherwise as "Seller"; the shown name is never empty |
| ProductDetails.CheckSellerRole | src/components/ProductDetails.tsx:45-53 | without a viewer the seller flag is unchanged; with one it is set exactly when the viewer has the seller or admin role |
| ProductDetails.CommentsOf | src/components/ProductDetails.tsx:55-60 | the fetched comments are exactly this product's rows |
| ProductDetails.CommentsOfCounts | src/components/ProductDetails.tsx:55-60 | the fetch returns each of this product's rows as many times as the table holds it, duplicates included, and no row of another product |
| ProductDetails.FetchComments | src/components/ProductDetails.tsx:55-92 | a successful fetch with a viewer sets the count to the viewer's own comments; an error or a missing viewer keeps the old count |
| ProductDetails.SubmitComment | src/components/ProductDetails.tsx:94-130 | a submission is ignored exactly without a viewer, seller flag or non-blank text; it is refused exactly when the count has reached 10; otherwise it inserts the trimmed text under the viewer's id, and only a successful insert clears the draft |
| ProductDetails.FooterFor | src/components/ProductDetails.tsx:193-215 | non-sellers get no comment form, and sellers at or over the limit get the limit notice instead of the form |
| ProductDetails.OwnCommentsAppend | src/components/ProductDetails.tsx:87 | a new comment raises its author's count by one and no one else's |
| ProductDetails.CommentsOfAppend | src/components/ProductDetails.tsx:55-60 | a new comment appears at the end of its own product's list only |
| ProductDetails.SendKeepsQuota | src/components/ProductDetails.tsx:94-130 | sending then refetching keeps the displayed count equal to the viewer's comments on the product; a row is added exactly when a seller with non-blank text and fewer than 10 comments gets a successful insert, and then the count rises by one; a count that starts at or below 10 never ends above 10 |
| ProductDetails.TenthPassesEleventhRefused | src/components/ProductDetails.tsx:38 | with 9 comments a seller's next comment is posted, and with 10 it is refused |
| DashboardCommon.PageGate | src/pages/SellerDashboard.tsx:46-65 | a settled session without a user goes to the sign-in page; a settled user who is not admitted is sent home; data loads whenever there is a user and either auth is still loading or the user is admitted |
| DashboardCommon.UploadImage | src/pages/SellerDashboard.tsx:89-120 | an upload is refused exactly when no one is signed in or the file exceeds the cap; otherwise the storage reply decides, and a URL comes back exactly when storage succeeds |
| DashboardCommon.CapsAreInclusive | src/pages/AdminDashboard.tsx:182-190 | a file of exactly 1048576 (products) or 2097152 (carousel) bytes is sent, and one byte more is refused |
| SellerDashboard.SellerGate | src/pages/SellerDashboard.tsx:46-65 | the seller page goes to sign-in for a settled missing user, denies settled users with neither the seller nor the admin role, and loads data exactly for a present user who is a seller or an admin or whose roles are still loading |
| SellerDashboard.EditProduct | src/pages/SellerDashboard.tsx:240-247 | editing fills the form from the product, falls back to "Study Material" for an empty category, opens the dialog, and keeps any chosen file |
| SellerDashboard.EditThenSave | src/pages/SellerDashboard.tsx:128-247 | editing a product and saving without a new image writes an update of that product carrying its own fields (an empty category read as "Study Material") under the user's id, reports it, refetches and closes the form |
| SellerDashboard.ResetClearsEverything | src/pages/SellerDashboard.tsx:249-257 | reset empties the text fields, restores the default category, drops the file and the edited product, and closes the dialog |
| SellerDashboard.HandleSubmit | src/pages/SellerDashboard.tsx:122-197 | with no user nothing happens; a refused or failed upload writes nothing and reports the failure, and an empty URL writes nothing silently; an upload that returns a URL forces a write carrying that URL; the form's fields are written under the user's id, as an update of the edited product or as an insert; the notice names the update, the insert, the first product or the failure; a successful write refetches and resets the form, and anything else keeps it |
| SellerDashboard.FirstProductOnlyOnce | src/pages/SellerDashboard.tsx:176-189 | a seller with no products gets the first-product celebration, and a seller with any product gets the plain notice |
| SellerDashboard.ToggleSold | src/pages/SellerDashboard.tsx:199-220 | the toggle writes the negated availability; a successful write reports "sold" exactly when the product was available; a failed one reports the failure |
| SellerDashboard.ToggleSoldTwice | src/pages/SellerDashboard.tsx:199-203 | toggling the same product twice restores the product list exactly |
| AdminDashboard.AdminGate | src/pages/AdminDashboard.tsx:70-91 | the admin page goes to sign-in for a settled missing user, denies settled users without the admin role, and loads data exactly for a present user who is an admin or whose roles are still loading |
| AdminDashboard.RolesOfAppend | src/pages/AdminDashboard.tsx:133-138 | a new role row adds its role to the end of its own user's list only |
| AdminDashboard.GroupRoles | src/pages/AdminDashboard.tsx:131-140 | the grouped map has an entry exactly for users with at least one role row, holding that user's roles in table order |
| AdminDashboard.FetchUsers | src/pages/AdminDashboard.tsx:110-141 | a failed profile load changes nothing; otherwise the users are replaced, and the role map is regrouped only when the role load succeeds |
| AdminDashboard.OfferFlipsAfterRefetch | src/pages/AdminDashboard.tsx:272-306 | after the dialog's offered action is written and the users are refetched, the dialog offers the opposite action for that role |
| AdminDashboard.DeleteMatching | src/pages/AdminDashboard.tsx:289-293 | removing a role deletes every row for that user and role and keeps each other row as many times as it occurred |
| AdminDashboard.RoleMembership | src/pages/AdminDashboard.tsx:570 | a role is listed for a user exactly when the table has that row |
| AdminDashboard.RoleWriteEffect | src/pages/AdminDashboard.tsx:272-306 | adding a role gives the user that role; removing it takes it away; no other user's role and no other role of that user changes |
| AdminDashboard.RoleChoice | src/pages/AdminDashboard.tsx:570-589 | the dialog offers "Remove" exactly for roles the user holds, and "Add" for the rest |
| AdminDashboard.RoleDialog | src/pages/AdminDashboard.tsx:564-591 | the dialog lists public, seller and admin in that order, each with its offered action |
| AdminDashboard.OfferedActionFlipsRole | src/pages/AdminDashboard.tsx:564-589 | applying the offered action flips whether the user holds that role |
| AdminDashboard.SelfRevocationLocksOut | src/pages/AdminDashboard.tsx:76 | an admin who removes their own admin role is denied the admin page on the next settled check |
| AdminDashboard.ToggleSponsored | src/pages/AdminDashboard.tsx:160-179 | the toggle writes the negation of the current flag, with a missing flag read as false; a successful write reports removal exactly when the product was sponsored |
| AdminDashboard.SponsorToggleOnlyThatProduct | src/pages/AdminDashboard.tsx:160-164 | a sponsorship toggle changes only that product, which afterwards is sponsored exactly when it was not before |
| AdminDashboard.CarouselResetClears | src/pages/AdminDashboard.tsx:308-315 | reset empties title, subtitle and link, sets the order back to "0", drops the file and closes the dialog |
| AdminDashboard.NullIfEmpty | src/pages/AdminDashboard.tsx:234-236 | an optional carousel text is stored as null exactly when it is empty |
| AdminDashboard.HandleCarouselSubmit | src/pages/AdminDashboard.tsx:212-255 | without a file only the "select an image" notice appears; otherwise an insert happens exactly when the upload returns a non-empty URL, with that URL, empty texts as null, and the row active; a failed upload reports the failure and an empty URL is silent; the insert's outcome picks the notice, and the form resets only after a successful insert |
| AdminDashboard.AddThenResubmit | src/pages/AdminDashboard.tsx:212-315 | a carousel item with a stored image is inserted with its texts and the notice "added"; submitting the form that is left afterwards only asks for an image |
| AuthPage.HandleSubmit | src/pages/Auth.tsx:26-45 | the magic-link switch wins; otherwise the login flag chooses between sign-in and sign-up; the e-mail, the password and (for sign-up) the full name are passed on unchanged, and only a successful password sign-in or sign-up navigates home |
| AuthPage.ViewOf | src/pages/Auth.tsx:55-131 | the title and the submit label name the mode ("Magic Link Sign In"/"Send Magic Link", "Welcome Back"/"Sign In", "Create Account"/"Sign Up"); while loading the button reads "Processing..." and is disabled; the full-name field appears only in sign-up mode, the password field (minimum length 6) in both password modes, and the login toggle only without magic link |
| AuthPage.ToggleMagicLink | src/pages/Auth.tsx:113-116 | the magic-link switch flips the mode and always returns to login |
| AuthPage.ToggleLogin | src/pages/Auth.tsx:122-131 | the login switch, offered only without magic link, flips between sign-in and sign-up |
| AuthPage.TitlesFollowModes | src/pages/Auth.tsx:11-12 | the form opens in login mode titled "Welcome Back", and two forms share a title exactly when they are in the same mode |
| AuthPage.MagicLinkRoundTrip | src/pages/Auth.tsx:113-116 | switching magic link on and off again restores the switch and lands in login mode |
| AuthPage.MagicLinkImpliesLogin | src/pages/Auth.tsx:111-131 | starting from a consistent form, no sequence of toggles reaches magic link with sign-up selected |
| Navigation.NavbarLinks | src/components/Navbar.tsx:20-86 | Home comes first and Login or Logout last, never both; the seller dashboard link appears exactly for a signed-in seller or admin, and the admin link exactly for a signed-in admin |
| Navigation.SidebarSections | src/components/Sidebar.tsx:36-90 | the sidebar's footer is Logout when signed in and Login otherwise, and neither appears among its links |
| Navigation.AdminLinkFollowsSellerLink | src/components/Navbar.tsx:24-31 | whenever the admin link is shown, the seller link is shown right before it |
| Navigation.SidebarMatchesNavbar | src/components/Sidebar.tsx:10-89 | the sidebar's links followed by its footer are exactly the navbar's links |
| Theme.ApplyTheme | src/contexts/ThemeContext.tsx:23-27 | applying a theme adds its class, leaves every non-theme class alone, and leaves dark (saffron) on the root exactly when the applied theme is dark (saffron), so any other value drops both |
| Theme.Initial | src/contexts/ThemeContext.tsx:13 | the provider starts in the dark theme |
| Theme.Restore | src/contexts/ThemeContext.tsx:15-27 | a non-empty stored value is adopted as the theme; it is applied when it is a valid class token, and otherwise applying throws after both theme classes were removed; an absent or empty value changes nothing |
| Theme.Next | src/contexts/ThemeContext.tsx:30 | the next theme is always dark or saffron, and it is saffron exactly when the current one is dark |
| Theme.Toggle | src/contexts/ThemeContext.tsx:29-34 | toggling changes the theme, stores it, and applies it to the root classes |
| Theme.ToggleTwice | src/contexts/ThemeContext.tsx:29-34 | toggling twice returns to a known theme, and toggling an unknown stored theme yields dark |
| Theme.ToggleLeavesOneThemeClass | src/contexts/ThemeContext.tsx:24-33 | after a toggle exactly one of the dark and saffron classes is on the root, the current one |
| Theme.SaveThenRestore | src/contexts/ThemeContext.tsx:15-34 | what a toggle stores, the next mount restores on any root: the same theme, applied without a throw |
| Theme.SpacedValueStripsThemeClasses | src/contexts/ThemeContext.tsx:15-27 | a stored "dark " is adopted, applying it throws, and the root keeps neither theme class |

## Left out

- Backend, storage and identity-service calls are not modelled as calls. Their replies are inputs, and the table effects the logic relies on are small store functions.
- Network concurrency is left out. That covers overlapping clicks, the `setTimeout` role fetch racing a later session event, and two tabs beating the comment quota together. Every lemma assumes events happen one at a time.
- Prices are integers. `parseFloat`/`parseInt` of the form fields, NaN, and `toFixed(2)` display are floating-point and are left out. The form holds `Option<int>` instead.
- Timestamps are integer milliseconds given by a `Clock` input. Date parsing and computing local midnight depend on the host clock and time zone.
- Text.Lower: lowers only the ASCII letters, because full Unicode case mapping needs tables outside the model.
- Storage file naming (`user id / Date.now() . extension`) needs a clock and number formatting. Only the upload's outcome is modelled.
- The product and carousel deletes (`handleDelete`, `handleDeleteCarousel`) are single deletes by id with a notice. They add nothing beyond the store reply.
- `fetchProducts` and `fetchCarousel` on the dashboards replace the list on success and keep it on error. They are not modelled separately.
- Loading, uploading and submitting flags are left out, except on the sign-in page, where `AuthPage.ViewOf` takes `loading`. They only disable buttons.
- Toast texts, navigation side effects, confetti, animations and the comment timestamps (`formatDistanceToNow`) are left out. The model keeps which notice or navigation is chosen.
- The redirect effect on the sign-in page (`user` present → home) is a one-line navigation and is left out.
- `signUp`, `signIn`, `signInWithMagicLink` and `signOut` in the auth context forward to the identity service and raise a toast. `AuthPage.HandleSubmit` takes their outcome as `callOk`.
- ProductDetails.CommentsOf: returns rows in table order. The store's `order("created_at", { ascending: false })` is not modelled, because the rows carry no timestamp the quota depends on; only membership and counts are stated.
- Role strings from the store are trusted as valid roles, as the source's unchecked cast does.
- The per-comment profile lookups are modelled as one optional profile per comment.
- What React does with the error `Theme.Restore` reports (error boundaries, unmounting) is outside the model. The model records the throw and the root classes at that moment.
- The `useTheme` guard mirrors `useAuth` and is not modelled separately.
- Presentational components are left out: Layout, Logo, CompactProductCard, SponsoredProductsCarousel, ThemeToggle and the `ui/` effects.
- StableSort.SortBy: is proved sorted, a permutation and stable. The claim that every stable sort gives this same order is not proved.

## Findings

| source | as written | input that shows it | evidently intended | confidence | as-written member | corrected member |
|---|---|---|---|---|---|---|
| src/components/ProductCard.tsx:61-69 | the admin-liked flag is recomputed only when the like list is non-empty, so it keeps its previous value when the likes drop to zero | an admin likes a product nobody else liked, then unlikes it: the refetch returns no likes, the count shows 0 and "Liked by Admin" stays | the badge shows exactly when some current liker is an admin | high; not executed | ProductCard.AdminBadgeOutlivesLastLike (about ProductCard.FetchLikes) | ProductCard.FetchLikesFixed (used by ProductCard.Click and ProductCard.LikeThenUnlike; ProductCard.ClickAsWritten and ProductCard.LikeThenUnlikeAsWritten show the code as written) |

=== FILE: admin_dashboard.dfy ===
/** The admin dashboard: who may open it, the per-user grouping of role
    rows, role grants and revocations, the sponsorship toggle, and the
    carousel item form. */
module AdminDashboard {
  import opened Wrappers
  import opened Products
  import opened AuthContext
  import opened DashboardCommon

  /** Only admins are admitted. */
  function AdminGate(authLoading: bool, user: Option<string>, roles: seq<Role>): (g: Gate)
    ensures g == RedirectToAuth <==> !authLoading && user.None?
    ensures g == DenyAndGoHome <==> !authLoading && user.Some? && Admin !in roles
    ensures g == LoadData <==> user.Some? && (authLoading || Admin in roles)
  {
    PageGate(authLoading, user, HasRole(roles, Admin))
  }

  /** The roles of `user` among `rows`, in row order. */
  function RolesOf(rows: seq<RoleRow>, user: string): seq<Role> {
    if rows == [] then []
    else (if rows[0].userId == user then [rows[0].role] else []) + RolesOf(rows[1..], user)
  }

  lemma {:induction false} RolesOfAppend(rows: seq<RoleRow>, row: RoleRow, user: string)
    ensures RolesOf(rows + [row], user) == RolesOf(rows, user) + (if row.userId == user then [row.role] else [])
    decreases |rows|
  {
    if rows == [] {
      assert [row][1..] == [];
    } else {
      var t := rows + [row];
      assert t[0] == rows[0] && t[1..] == rows[1..] + [row];
      RolesOfAppend(rows[1..], row, user);
      assert RolesOf(t, user) == (if rows[0].userId == user then [rows[0].role] else []) + RolesOf(t[1..], user);
    }
  }

  /** One step of the grouping walk: pushing the next row's role keeps the
      map equal to the per-user role lists of the rows seen so far. */
  lemma PushRole(m: map<string, seq<Role>>, init: seq<RoleRow>, last: RoleRow)
    requires forall u :: u in m <==> RolesOf(init, u) != []
    requires forall u :: u in m ==> m[u] == RolesOf(init, u)
    ensures var m2 := m[last.userId := (if last.userId in m then m[last.userId] else []) + [last.role]];
      && (forall u :: u in m2 <==> RolesOf(init + [last], u) != [])
      && (forall u :: u in m2 ==> m2[u] == RolesOf(init + [last], u))
  {
    forall u ensures RolesOf(init + [last], u) == RolesOf(init, u) + (if last.userId == u then [last.role] else []) {
      RolesOfAppend(init, last, u);
    }
  }

  /** `fetchUsers`' `rolesByUser`: walks the rows in order, opening a list
      for a user on first sight and pushing each role onto it. Users with
      no rows get no entry. */
  function GroupRoles(rows: seq<RoleRow>): (m: map<string, seq<Role>>)
    ensures forall u :: u in m <==> RolesOf(rows, u) != []
    ensures forall u :: u in m ==> m[u] == RolesOf(rows, u)
  {
    if rows == [] then map[]
    else
      var init := rows[..|rows| - 1];
      var last := rows[|rows| - 1];
      var m := GroupRoles(init);
      assert rows == init + [last];
      PushRole(m, init, last);
      m[last.userId := (if last.userId in m then m[last.userId] else []) + [last.role]]
  }

  /** A row of `profiles` as the users tab shows it. */
  datatype UserProfile = UserProfile(id: string, email: string, fullName: Option<string>)

  /** The users tab's state. */
  datatype UsersTab = UsersTab(users: seq<UserProfile>, userRoles: map<string, seq<Role>>)

  /** `fetchUsers`: a failed profile query changes nothing (and the role
      query is not made); a failed role query keeps the old grouping. */
  function FetchUsers(s: UsersTab, profiles: Reply<seq<UserProfile>>, roles: Reply<seq<RoleRow>>): (r: UsersTab)
    ensures profiles.Err? ==> r == s
    ensures profiles.Ok? ==> r.users == profiles.value
    ensures profiles.Ok? && roles.Err? ==> r.userRoles == s.userRoles
    ensures profiles.Ok? && roles.Ok? ==> forall u :: (u in r.userRoles <==> RolesOf(roles.value, u) != [])
    ensures profiles.Ok? && roles.Ok? ==> forall u :: u in r.userRoles ==> r.userRoles[u] == RolesOf(roles.value, u)
  {
    match profiles
    case Err(_) => s
    case Ok(ps) =>
      match roles
      case Err(_) => UsersTab(ps, s.userRoles)
      case Ok(rows) => UsersTab(ps, GroupRoles(rows))
  }

  datatype RoleAction = AddRole | RemoveRole

  /** The write `handleUpdateUserRole` issues. It does not look at who the
      acting admin is. */
  datatype RoleWrite =
    | InsertRole(row: RoleRow)                // insert (userId, role)
    | DeleteRoles(userId: string, role: Role) // delete every matching row

  function RoleWriteFor(userId: string, role: Role, action: RoleAction): RoleWrite {
    match action
    case AddRole => InsertRole(RoleRow(userId, role))
    case RemoveRole => DeleteRoles(userId, role)
  }

  /** The table without any (userId, role) row. */
  function DeleteMatching(table: seq<RoleRow>, userId: string, role: Role): (r: seq<RoleRow>)
    ensures forall row :: row in r <==> row in table && row != RoleRow(userId, role)
    ensures forall row :: multiset(r)[row] == if row == RoleRow(userId, role) then 0 else multiset(table)[row]
  {
    if table == [] then []
    else
      assert table == [table[0]] + table[1..];
      (if table[0] == RoleRow(userId, role) then [] else [table[0]]) + DeleteMatching(table[1..], userId, role)
  }

  /** The store applying a role write that succeeds. */
  function ApplyRoleWrite(table: seq<RoleRow>, w: RoleWrite): seq<RoleRow> {
    match w
    case InsertRole(row) => table + [row]
    case DeleteRoles(u, role) => DeleteMatching(table, u, role)
  }

  lemma RoleMembership(rows: seq<RoleRow>, user: string, role: Role)
    ensures role in RolesOf(rows, user) <==> RoleRow(user, role) in rows
  {
  }

  /** A grant gives the user the role and a revocation takes it away, in
      both cases without touching any other (user, role) pair. */
  lemma RoleWriteEffect(table: seq<RoleRow>, userId: string, role: Role, action: RoleAction, u: string, q: Role)
    ensures var t := ApplyRoleWrite(table, RoleWriteFor(userId, role, action));
      && (q in RolesOf(t, u) <==>
          if u == userId && q == role then action == AddRole else q in RolesOf(table, u))
  {
    var t := ApplyRoleWrite(table, RoleWriteFor(userId, role, action));
    RoleMembership(t, u, q);
    RoleMembership(table, u, q);
  }

  /** The button the role dialog shows for a role: Remove when the grouping
      lists the role for the user, otherwise Add. */
  function RoleChoice(userRoles: map<string, seq<Role>>, userId: string, role: Role): (a: RoleAction)
    ensures a == RemoveRole <==> userId in userRoles && role in userRoles[userId]
  {
    if userId in userRoles && HasRole(userRoles[userId], role) then RemoveRole else AddRole
  }

  /** The dialog's three rows, public, seller and admin, with their buttons. */
  function RoleDialog(userRoles: map<string, seq<Role>>, userId: string): (rows: seq<(Role, RoleAction)>)
    ensures |rows| == 3 && rows[0].0 == Public && rows[1].0 == Seller && rows[2].0 == Admin
    ensures forall i :: 0 <= i < 3 ==> rows[i].1 == RoleChoice(userRoles, userId, rows[i].0)
  {
    [(Public, RoleChoice(userRoles, userId, Public)),
     (Seller, RoleChoice(userRoles, userId, Seller)),
     (Admin, RoleChoice(userRoles, userId, Admin))]
  }

  /** With the grouping fetched from the table, pressing the offered button
      flips exactly that role of that user. */
  lemma OfferedActionFlipsRole(table: seq<RoleRow>, userId: string, role: Role)
    ensures var a := RoleChoice(GroupRoles(table), userId, role);
      var t := ApplyRoleWrite(table, RoleWriteFor(userId, role, a));
      (role in RolesOf(t, userId)) == !(role in RolesOf(table, userId))
  {
    var a := RoleChoice(GroupRoles(table), userId, role);
    RoleWriteEffect(table, userId, role, a, userId, role);
  }

  /** The dialog after a round trip: pressing the offered button and
      reloading the users tab (as a successful role write does) makes the
      same row offer the opposite button. */
  lemma OfferFlipsAfterRefetch(tab: UsersTab, table: seq<RoleRow>, profiles: seq<UserProfile>,
                               userId: string, role: Role)
    requires tab.userRoles == GroupRoles(table)
    ensures var a := RoleChoice(tab.userRoles, userId, role);
      var tab2 := FetchUsers(tab, Ok(profiles), Ok(ApplyRoleWrite(table, RoleWriteFor(userId, role, a))));
      RoleChoice(tab2.userRoles, userId, role) != a
  {
    var a := RoleChoice(tab.userRoles, userId, role);
    var t := ApplyRoleWrite(table, RoleWriteFor(userId, role, a));
    OfferedActionFlipsRole(table, userId, role);
    assert a == RemoveRole <==> role in RolesOf(table, userId);
    var tab2 := FetchUsers(tab, Ok(profiles), Ok(t));
    assert RoleChoice(tab2.userRoles, userId, role) == RemoveRole <==> role in RolesOf(t, userId);
  }

  /** Nothing stops an admin from revoking their own admin role: afterwards
      their next visit to this page is denied. */
  lemma SelfRevocationLocksOut(table: seq<RoleRow>, admin: string)
    ensures var t := ApplyRoleWrite(table, RoleWriteFor(admin, Admin, RemoveRole));
      AdminGate(false, Some(admin), RolesOf(t, admin)) == DenyAndGoHome
  {
    RoleWriteEffect(table, admin, Admin, RemoveRole, admin, Admin);
  }

  datatype SponsorNotice = SponsorUpdateFailed | AddedToSponsored | RemovedFromSponsored

  /** `toggleSponsoredStatus(id, is_sponsored || false)`: writes the negated
      flag, a missing flag counting as not sponsored. */
  function ToggleSponsored(p: Product, writeOk: bool): (r: (bool, SponsorNotice))
    ensures r.0 <==> !(p.isSponsored == Some(true))
    ensures !writeOk <==> r.1 == SponsorUpdateFailed
    ensures writeOk ==> (r.1 == RemovedFromSponsored <==> p.isSponsored == Some(true))
  {
    var current := p.isSponsored.GetOr(false);
    (!current, if !writeOk then SponsorUpdateFailed else if current then RemovedFromSponsored else AddedToSponsored)
  }

  /** Applied by the store, the sponsor toggle changes only that product,
      which then is sponsored exactly when it was not before. */
  lemma SponsorToggleOnlyThatProduct(s: seq<Product>, i: int)
    requires UniqueIds(s) && 0 <= i < |s|
    ensures var s1 := SetSponsored(s, s[i].id, ToggleSponsored(s[i], true).0);
      && (s1[i].isSponsored == Some(true) <==> s[i].isSponsored != Some(true))
      && (forall j :: 0 <= j < |s| && j != i ==> s1[j] == s[j])
  {
  }

  /** The carousel form. `displayOrder` is the text in the order box. */
  datatype CarouselForm = CarouselForm(
    title: string, subtitle: string, linkUrl: string, displayOrder: string,
    imageFile: Option<ImageFile>, dialogOpen: bool)

  /** `resetForm`'s result, which is also the initial form. */
  const ClosedCarouselForm := CarouselForm("", "", "", "0", None, false)

  /** `resetForm` empties the text fields, sets the order back to "0",
      drops the file and closes the dialog. */
  lemma CarouselResetClears()
    ensures ClosedCarouselForm.title == "" && ClosedCarouselForm.subtitle == "" && ClosedCarouselForm.linkUrl == ""
    ensures ClosedCarouselForm.displayOrder == "0"
    ensures ClosedCarouselForm.imageFile.None? && !ClosedCarouselForm.dialogOpen
  {
  }

  /** The carousel row a submission inserts. */
  datatype CarouselInsert = CarouselInsert(
    imageUrl: string, title: Option<string>, subtitle: Option<string>, linkUrl: Option<string>,
    displayOrder: string, isActive: bool)

  datatype CarouselNotice = Silent | SelectAnImage | FileTooLarge | UploadFailed | CreateFailed | ItemAdded

  datatype CarouselResult = CarouselResult(
    upload: Option<Upload>,         // the upload made, if any
    insert: Option<CarouselInsert>, // the row inserted, if any
    notice: CarouselNotice,
    form: CarouselForm)

  /** `x || null`. */
  function NullIfEmpty(s: string): (r: Option<string>)
    ensures r.None? <==> s == ""
    ensures r.Some? ==> r.value == s
  {
    if s == "" then None else Some(s)
  }

  /** `handleCarouselSubmit`. `storage` is the bucket's answer should the
      file be sent, `insertOk` whether the insert succeeds. */
  function HandleCarouselSubmit(f: CarouselForm, storage: Reply<string>, insertOk: bool): (r: CarouselResult)
    ensures f.imageFile.None? ==> r.upload.None? && r.insert.None? && r.notice == SelectAnImage
    ensures f.imageFile.Some? ==> r.upload == Some(UploadImage(f.imageFile.value, CarouselImageCap, true, storage))
    ensures f.imageFile.Some? && f.imageFile.value.size > CarouselImageCap ==>
      r.insert.None? && r.notice == FileTooLarge && r.upload == Some(Refused(TooLarge))
    ensures r.insert.Some? ==> r.insert.value.isActive && r.upload.Some? && r.upload.value.Url() == Some(r.insert.value.imageUrl)
    ensures r.insert.Some? ==>
      && r.insert.value.title == NullIfEmpty(f.title)
      && r.insert.value.subtitle == NullIfEmpty(f.subtitle)
      && r.insert.value.linkUrl == NullIfEmpty(f.linkUrl)
      && r.insert.value.displayOrder == f.displayOrder
    ensures r.form == (if r.insert.Some? && insertOk then ClosedCarouselForm else f)
    ensures f.imageFile.Some? ==>
      var u := UploadImage(f.imageFile.value, CarouselImageCap, true, storage);
      && (r.insert.Some? <==> u.Url().Some? && u.Url().value != "")
      && (u.Sent? && u.reply.Err? ==> r.notice == UploadFailed)
      && (u == Sent(Ok("")) ==> r.notice == Silent)
    ensures r.insert.Some? ==> r.notice == (if insertOk then ItemAdded else CreateFailed)
  {
    match f.imageFile
    case None => CarouselResult(None, None, SelectAnImage, f)
    case Some(file) =>
      var up := UploadImage(file, CarouselImageCap, true, storage);
      var url := up.Url();
      if url.None? || url.value == "" then
        CarouselResult(Some(up), None, if up.Refused? then FileTooLarge else if url.None? then UploadFailed else Silent, f)
      else
        var row := CarouselInsert(url.value, NullIfEmpty(f.title), NullIfEmpty(f.subtitle), NullIfEmpty(f.linkUrl), f.displayOrder, true);
        if insertOk then CarouselResult(Some(up), Some(row), ItemAdded, ClosedCarouselForm)
        else CarouselResult(Some(up), Some(row), CreateFailed, f)
  }

  /** A file within the cap whose upload returns a URL adds exactly one
      active row carrying that URL and resets the form; submitting the reset
      form again only asks for an image, so nothing is added twice. */
  lemma AddThenResubmit(f: CarouselForm, url: string, storage: Reply<string>, insertOk: bool)
    requires f.imageFile.Some? && f.imageFile.value.size <= CarouselImageCap && url != ""
    ensures var r := HandleCarouselSubmit(f, Ok(url), true);
      && r.insert == Some(CarouselInsert(url, NullIfEmpty(f.title), NullIfEmpty(f.subtitle),
                                         NullIfEmpty(f.linkUrl), f.displayOrder, true))
      && r.notice == ItemAdded
      && HandleCarouselSubmit(r.form, storage, insertOk) == CarouselResult(None, None, SelectAnImage, ClosedCarouselForm)
  {
    assert UploadImage(f.imageFile.value, CarouselImageCap, true, Ok(url)).Url() == Some(url);
  }
}

=== FILE: auth_context.dfy ===
/** The session/role provider: the current user, that user's role list,
    the `loading` flag, `hasRole`, and the `useAuth` accessor. Session
    events and role fetches arrive as inputs; the identity service itself
    is not modelled. */
module AuthContext {
  import opened Wrappers

  /** `UserRole`. */
  datatype Role = Public | Seller | Admin

  function RoleName(r: Role): string {
    match r
    case Public => "public"
    case Seller => "seller"
    case Admin => "admin"
  }

  /** One row of the `user_roles` table. */
  datatype RoleRow = RoleRow(userId: string, role: Role)

  /** The provider's state. `user` is the signed-in user's id. */
  datatype AuthState = AuthState(user: Option<string>, roles: seq<Role>, loading: bool)

  /** Before any session information has arrived. */
  const InitialAuth := AuthState(None, [], true)

  /** `hasRole(r)`: `roles.includes(r)`, scanning from the front. */
  function HasRole(roles: seq<Role>, r: Role): (b: bool)
    ensures b <==> r in roles
  {
    if roles == [] then false else roles[0] == r || HasRole(roles[1..], r)
  }

  /** `fetchUserRoles`: the role column of the user's rows, or no roles at
      all when the query fails. */
  function FetchUserRoles(reply: Reply<seq<Role>>): (roles: seq<Role>)
    ensures reply.Err? ==> roles == []
    ensures reply.Ok? ==> roles == reply.value
  {
    match reply
    case Err(_) => []
    case Ok(rows) => rows
  }

  /** The `onAuthStateChange` listener. A session without a user clears the
      roles; a session with a user keeps the old roles until the deferred
      role fetch lands (`RolesFetched`). Either way loading ends. */
  function SessionChanged(s: AuthState, sessionUser: Option<string>): (r: AuthState)
    ensures r.user == sessionUser && !r.loading
    ensures sessionUser.None? ==> r.roles == []
    ensures sessionUser.Some? ==> r.roles == s.roles
  {
    if sessionUser.None? then AuthState(None, [], false)
    else AuthState(sessionUser, s.roles, false)
  }

  /** The initial `getSession` check: sets the user and ends loading, but
      leaves the roles alone; the role fetch it starts lands later. */
  function InitialSession(s: AuthState, sessionUser: Option<string>): (r: AuthState)
    ensures r.user == sessionUser && !r.loading && r.roles == s.roles
  {
    s.(user := sessionUser, loading := false)
  }

  /** A role fetch started by either of the two session paths completing. */
  function RolesFetched(s: AuthState, reply: Reply<seq<Role>>): (r: AuthState)
    ensures r.user == s.user && r.loading == s.loading
    ensures reply.Ok? ==> r.roles == reply.value
    ensures reply.Err? ==> forall role :: !HasRole(r.roles, role)
  {
    s.(roles := FetchUserRoles(reply))
  }

  const OutsideProviderMessage := "useAuth must be used within AuthProvider"

  /** `useAuth`: the provider's state, or the error thrown when there is no
      enclosing provider. */
  function UseAuth(context: Option<AuthState>): (r: Reply<AuthState>)
    ensures context.None? <==> r == Err(OutsideProviderMessage)
    ensures context.Some? ==> r == Ok(context.value)
  {
    match context
    case None => Err(OutsideProviderMessage)
    case Some(s) => Ok(s)
  }

  /** Whatever order the two session paths report in, once either has
      reported, `loading` is false for good: no later session step or role
      fetch sets it again. */
  lemma {:induction false} LoadingEndsForGood(s: AuthState, events: seq<AuthEvent>)
    requires !s.loading
    ensures !Run(s, events).loading
    decreases |events|
  {
    if events != [] {
      LoadingEndsForGood(Step(s, events[0]), events[1..]);
    }
  }

  /** The three ways the provider's state changes. */
  datatype AuthEvent =
    | Changed(sessionUser: Option<string>)
    | Initial(sessionUser: Option<string>)
    | Fetched(reply: Reply<seq<Role>>)

  function Step(s: AuthState, e: AuthEvent): AuthState {
    match e
    case Changed(u) => SessionChanged(s, u)
    case Initial(u) => InitialSession(s, u)
    case Fetched(reply) => RolesFetched(s, reply)
  }

  function Run(s: AuthState, events: seq<AuthEvent>): AuthState
    decreases |events|
  {
    if events == [] then s else Run(Step(s, events[0]), events[1..])
  }

  /** The events that set the role list: a landed fetch, and a session
      event without a user. */
  predicate WritesRoles(e: AuthEvent) {
    e.Fetched? || e == Changed(None)
  }

  lemma {:induction false} RunAppend(s: AuthState, a: seq<AuthEvent>, b: seq<AuthEvent>)
    ensures Run(s, a + b) == Run(Run(s, a), b)
    decreases |a|
  {
    if a != [] {
      assert (a + b)[0] == a[0] && (a + b)[1..] == a[1..] + b;
      RunAppend(Step(s, a[0]), a[1..], b);
    } else {
      assert a + b == b;
    }
  }

  /** Events that do not set the role list leave it as it was. */
  lemma {:induction false} RolesUntouched(s: AuthState, events: seq<AuthEvent>)
    requires forall j :: 0 <= j < |events| ==> !WritesRoles(events[j])
    ensures Run(s, events).roles == s.roles
    decreases |events|
  {
    if events != [] {
      RolesUntouched(Step(s, events[0]), events[1..]);
    }
  }

  /** `hasRole` answers from the last role write: when the last event that
      sets the roles is a successful fetch of `rs`, a role is held exactly
      when it is in `rs`, whatever came before and whatever session events
      with a user came after. */
  lemma LastFetchDecides(s: AuthState, events: seq<AuthEvent>, i: int, rs: seq<Role>, role: Role)
    requires 0 <= i < |events| && events[i] == Fetched(Ok(rs))
    requires forall j :: i < j < |events| ==> !WritesRoles(events[j])
    ensures HasRole(Run(s, events).roles, role) <==> role in rs
  {
    assert events == events[..i] + ([events[i]] + events[i + 1..]);
    RunAppend(s, events[..i], [events[i]] + events[i + 1..]);
    var m := Run(s, events[..i]);
    assert Run(m, [events[i]] + events[i + 1..]) == Run(Step(m, events[i]), events[i + 1..]);
    RolesUntouched(Step(m, events[i]), events[i + 1..]);
  }

  /** After a session event without a user, the provider reports no user
      and no role at all. */
  lemma SignedOutHasNoRoles(s: AuthState, role: Role)
    ensures Step(s, Changed(None)).user.None?
    ensures !HasRole(Step(s, Changed(None)).roles, role)
  {
  }
}

=== FILE: auth_page.dfy ===
/** The sign-in page: its two mode flags, which identity call a submission
    makes, what the form shows in each mode, and the mode toggles. */
module AuthPage {

  /** `isLogin` and `useMagicLink`. */
  datatype AuthForm = AuthForm(isLogin: bool, useMagicLink: bool)

  const InitialForm := AuthForm(true, false)

  /** The three modes, in the priority the page checks them. */
  datatype AuthMode = MagicLinkMode | LoginMode | SignUpMode

  function ModeOf(f: AuthForm): AuthMode {
    if f.useMagicLink then MagicLinkMode else if f.isLogin then LoginMode else SignUpMode
  }

  /** The identity call a submission makes. */
  datatype Dispatch =
    | SendMagicLink(email: string)
    | SignIn(email: string, password: string)
    | SignUp(email: string, password: string, fullName: string)

  /** `handleSubmit`: exactly one call, picked by mode; the page navigates
      home only after a password sign-in or sign-up that reported no
      error. `callOk` is whether the call succeeded. */
  function HandleSubmit(f: AuthForm, email: string, password: string, fullName: string, callOk: bool)
    : (r: (Dispatch, bool))
    ensures r.0.SendMagicLink? <==> f.useMagicLink
    ensures r.0.SignIn? <==> !f.useMagicLink && f.isLogin
    ensures r.0.SignUp? <==> !f.useMagicLink && !f.isLogin
    ensures r.0.email == email
    ensures !r.0.SendMagicLink? ==> r.0.password == password
    ensures r.0.SignUp? ==> r.0.fullName == fullName
    ensures r.1 <==> !f.useMagicLink && callOk
  {
    if f.useMagicLink then (SendMagicLink(email), false)
    else if f.isLogin then (SignIn(email, password), callOk)
    else (SignUp(email, password, fullName), callOk)
  }

  /** What the form shows. */
  datatype View = View(title: string, submitLabel: string, submitEnabled: bool, showFullName: bool,
                       showPassword: bool, passwordMinLength: nat, offerLoginToggle: bool)

  /** The form's view; `loading` is set while a submission is in flight. */
  function ViewOf(f: AuthForm, loading: bool): (v: View)
    ensures v.showFullName <==> ModeOf(f) == SignUpMode
    ensures v.showPassword <==> ModeOf(f) != MagicLinkMode
    ensures v.offerLoginToggle <==> !f.useMagicLink
    ensures v.passwordMinLength == 6
    ensures v.submitEnabled <==> !loading
    ensures loading ==> v.submitLabel == "Processing..."
    ensures match ModeOf(f)
      case MagicLinkMode => v.title == "Magic Link Sign In" && (!loading ==> v.submitLabel == "Send Magic Link")
      case LoginMode => v.title == "Welcome Back" && (!loading ==> v.submitLabel == "Sign In")
      case SignUpMode => v.title == "Create Account" && (!loading ==> v.submitLabel == "Sign Up")
  {
    var title := if f.useMagicLink then "Magic Link Sign In" else if f.isLogin then "Welcome Back" else "Create Account";
    var button := if loading then "Processing..."
                  else if f.useMagicLink then "Send Magic Link" else if f.isLogin then "Sign In" else "Sign Up";
    View(title, button, !loading, !f.isLogin && !f.useMagicLink, !f.useMagicLink, 6, !f.useMagicLink)
  }

  /** The magic-link button: flips the flag and always returns to login. */
  function ToggleMagicLink(f: AuthForm): (r: AuthForm)
    ensures r.useMagicLink == !f.useMagicLink && r.isLogin
  {
    AuthForm(true, !f.useMagicLink)
  }

  /** The sign-up / sign-in link; only offered with magic link off. */
  function ToggleLogin(f: AuthForm): (r: AuthForm)
    requires !f.useMagicLink
    ensures r.isLogin == !f.isLogin && !r.useMagicLink
  {
    f.(isLogin := !f.isLogin)
  }

  /** The titles name the three modes one-to-one, and the page opens in
      login mode. */
  lemma TitlesFollowModes(f: AuthForm, g: AuthForm)
    ensures ModeOf(InitialForm) == LoginMode && ViewOf(InitialForm, false).title == "Welcome Back"
    ensures forall a: bool, b: bool :: ViewOf(f, a).title == ViewOf(g, b).title <==> ModeOf(f) == ModeOf(g)
  {
  }

  /** Leaving and re-entering magic-link mode lands in login mode, whatever
      mode the form was in before. */
  lemma MagicLinkRoundTrip(f: AuthForm)
    ensures ToggleMagicLink(ToggleMagicLink(f)).useMagicLink == f.useMagicLink
    ensures ModeOf(ToggleMagicLink(ToggleMagicLink(f))) == (if f.useMagicLink then MagicLinkMode else LoginMode)
  {
  }

  /** Every state the toggles can reach from the initial form, and what
      they do there. */
  datatype Toggle = MagicLinkToggle | LoginToggle

  function Apply(f: AuthForm, t: Toggle): AuthForm {
    match t
    case MagicLinkToggle => ToggleMagicLink(f)
    case LoginToggle => if f.useMagicLink then f else ToggleLogin(f)
  }

  function Replay(f: AuthForm, ts: seq<Toggle>): AuthForm
    decreases |ts|
  {
    if ts == [] then f else Replay(Apply(f, ts[0]), ts[1..])
  }

  /** Magic-link mode is always entered in login mode and the login toggle
      cannot change that, so a reachable form is never "magic link and
      sign-up" at once. */
  lemma {:induction false} MagicLinkImpliesLogin(f: AuthForm, ts: seq<Toggle>)
    requires f.useMagicLink ==> f.isLogin
    ensures Replay(f, ts).useMagicLink ==> Replay(f, ts).isLogin
    decreases |ts|
  {
    if ts != [] {
      MagicLinkImpliesLogin(Apply(f, ts[0]), ts[1..]);
    }
  }
}

=== FILE: categories.dfy ===
/** The fixed list of product categories (`PRODUCT_CATEGORIES`) and the
    `ProductCategory` type derived from it. */
module Categories {
  import opened Wrappers

  /** `ProductCategory`: one constructor per list entry. */
  datatype Category = StudyMaterial | Foods | Rooms | Vehicle | KitchenAccessories

  /** The display name, which is also the stored value. */
  function Name(c: Category): string {
    match c
    case StudyMaterial => "Study Material"
    case Foods => "Foods"
    case Rooms => "Rooms"
    case Vehicle => "Vehicle"
    case KitchenAccessories => "Kitchen Accessories"
  }

  /** The read-only list, in the order the pickers show it. */
  const ProductCategories: seq<string> :=
    ["Study Material", "Foods", "Rooms", "Vehicle", "Kitchen Accessories"]

  /** The category forms default to. */
  const DefaultCategory: Category := StudyMaterial

  /** Reads a stored string back as a category, if it is one. */
  function Parse(s: string): (r: Option<Category>)
    ensures r.Some? ==> Name(r.value) == s
    ensures r.None? ==> s !in ProductCategories
  {
    if s == "Study Material" then Some(StudyMaterial)
    else if s == "Foods" then Some(Foods)
    else if s == "Rooms" then Some(Rooms)
    else if s == "Vehicle" then Some(Vehicle)
    else if s == "Kitchen Accessories" then Some(KitchenAccessories)
    else None
  }

  /** The list has five pairwise distinct entries, and the type is exactly
      the set of list members: every category's name is listed at the
      position of its constructor, and every listed string names one. */
  lemma CategoryListShape()
    ensures |ProductCategories| == 5
    ensures forall i, j :: 0 <= i < j < |ProductCategories| ==> ProductCategories[i] != ProductCategories[j]
    ensures forall c :: Name(c) in ProductCategories
    ensures forall s :: s in ProductCategories <==> Parse(s).Some?
  {
  }

  /** Naming a category and reading the name back is the identity, so
      `Name` is injective. */
  lemma ParseName(c: Category)
    ensures Parse(Name(c)) == Some(c)
  {
  }

  lemma DefaultIsFirst()
    ensures Name(DefaultCategory) == ProductCategories[0]
  {
  }
}

=== FILE: dashboard_common.dfy ===
/** What the two dashboards share: the role gate run when the page mounts
    and the size check made before an image is uploaded. */
module DashboardCommon {
  import opened Wrappers

  /** The page effect's decision. */
  datatype Gate =
    | RedirectToAuth   // no user: go to /auth
    | DenyAndGoHome    // "Access Denied" notice, go to /
    | LoadData         // fetch the page's lists
    | Wait             // still loading, no user yet

  /** Both pages' effect, given whether the user's roles admit them. Note
      that a user who is present while the auth state is still loading
      gets the data without a role check. */
  function PageGate(authLoading: bool, user: Option<string>, admitted: bool): (g: Gate)
    ensures g == RedirectToAuth <==> !authLoading && user.None?
    ensures g == DenyAndGoHome <==> !authLoading && user.Some? && !admitted
    ensures g == LoadData <==> user.Some? && (authLoading || admitted)
  {
    if !authLoading && user.None? then RedirectToAuth
    else if !authLoading && user.Some? && !admitted then DenyAndGoHome
    else if user.Some? then LoadData
    else Wait
  }

  /** 1 MiB, the product image limit. */
  const ProductImageCap: nat := 1048576
  /** 2 MiB, the carousel image limit. */
  const CarouselImageCap: nat := 2097152

  /** A chosen file; only its size matters here. */
  datatype ImageFile = ImageFile(name: string, size: nat)

  /** Why a file was refused before any request. */
  datatype Refusal = NotSignedIn | TooLarge

  /** An upload: refused up front, or sent to storage with its answer (the
      public URL, or the storage error behind the "Upload failed" notice). */
  datatype Upload = Refused(reason: Refusal) | Sent(reply: Reply<string>) {

    /** The URL `uploadImage` resolves to, `null` when there is none. */
    function Url(): Option<string> {
      match this
      case Refused(_) => None
      case Sent(reply) => reply.Data()
    }
  }

  /** `uploadImage`: the size check comes before any request; `storage` is
      the answer the storage bucket would give. */
  function UploadImage(file: ImageFile, cap: nat, signedIn: bool, storage: Reply<string>): (r: Upload)
    ensures r.Refused? <==> !signedIn || file.size > cap
    ensures r == Refused(TooLarge) <==> signedIn && file.size > cap
    ensures r.Sent? ==> r.reply == storage
    ensures r.Url().Some? <==> signedIn && file.size <= cap && storage.Ok?
  {
    if !signedIn then Refused(NotSignedIn)
    else if file.size > cap then Refused(TooLarge)
    else Sent(storage)
  }

  /** The caps are inclusive: a file of exactly the cap is sent, one byte
      more is refused before any request. */
  lemma CapsAreInclusive(storage: Reply<string>)
    ensures UploadImage(ImageFile("x", ProductImageCap), ProductImageCap, true, storage).Sent?
    ensures UploadImage(ImageFile("x", ProductImageCap + 1), ProductImageCap, true, storage) == Refused(TooLarge)
    ensures UploadImage(ImageFile("x", CarouselImageCap), CarouselImageCap, true, storage).Sent?
    ensures UploadImage(ImageFile("x", CarouselImageCap + 1), CarouselImageCap, true, storage) == Refused(TooLarge)
    ensures ProductImageCap == 1024 * 1024 && CarouselImageCap == 2 * ProductImageCap
  {
  }
}

=== FILE: index_page.dfy ===
/** The rest of the home page's logic: the hero carousel's slide index and
    the join that attaches each seller's e-mail address to the products. */
module IndexPage {
  import opened Wrappers
  import opened Products

  /** JavaScript's `%`: the remainder of division truncated toward zero, so
      its sign follows the dividend (unlike Dafny's Euclidean `%`). */
  function JsRemainder(a: int, n: int): (r: int)
    requires n > 0
    ensures a >= 0 ==> r == a % n
    ensures a < 0 ==> -n < r <= 0
  {
    if a >= 0 then a % n else -((-a) % n)
  }

  /** A dividend below twice the divisor loses the divisor at most once. */
  lemma RemainderBelowTwice(a: int, n: int)
    requires 0 < n && 0 <= a < 2 * n
    ensures a % n == (if a < n then a else a - n)
  {
    if a < n {
      assert a == 0 * n + a;
    } else {
      assert a == 1 * n + (a - n);
    }
  }

  /** `nextSlide`, and the five-second auto-advance, which computes the
      same index. */
  function NextSlide(i: int, n: int): (r: int)
    requires 0 < n && 0 <= i < n
    ensures 0 <= r < n
    ensures r == (if i == n - 1 then 0 else i + 1)
  {
    RemainderBelowTwice(i + 1, n);
    JsRemainder(i + 1, n)
  }

  /** `prevSlide`: adds `n` before taking the remainder so the dividend
      stays non-negative. */
  function PrevSlide(i: int, n: int): (r: int)
    requires 0 < n && 0 <= i < n
    ensures 0 <= r < n
    ensures r == (if i == 0 then n - 1 else i - 1)
  {
    RemainderBelowTwice(i - 1 + n, n);
    JsRemainder(i - 1 + n, n)
  }

  /** The two buttons undo each other. */
  lemma PrevUndoesNext(i: int, n: int)
    requires 0 < n && 0 <= i < n
    ensures PrevSlide(NextSlide(i, n), n) == i
    ensures NextSlide(PrevSlide(i, n), n) == i
  {
  }

  /** A row of the `profiles` table as the home page selects it. */
  datatype Profile = Profile(id: string, email: string)

  function Ids(profiles: seq<Profile>): set<string> {
    set p | p in profiles :: p.id
  }

  ghost predicate UniqueProfileIds(profiles: seq<Profile>) {
    forall i, j :: 0 <= i < j < |profiles| ==> profiles[i].id != profiles[j].id
  }

  /** `new Map(profiles.map(p => [p.id, p.email]))`: entries are inserted in
      order, so a later profile with the same id overwrites an earlier one. */
  function EmailIndex(profiles: seq<Profile>): (m: map<string, string>)
    ensures m.Keys == Ids(profiles)
    ensures profiles != [] ==> m[profiles[|profiles| - 1].id] == profiles[|profiles| - 1].email
  {
    if profiles == [] then map[]
    else
      var init := profiles[..|profiles| - 1];
      var last := profiles[|profiles| - 1];
      assert profiles == init + [last];
      EmailIndex(init)[last.id := last.email]
  }

  /** With unique profile ids (the table's key), the index maps each id to
      that profile's e-mail. */
  lemma {:induction false} EmailIndexOfUnique(profiles: seq<Profile>, i: int)
    requires UniqueProfileIds(profiles) && 0 <= i < |profiles|
    ensures EmailIndex(profiles)[profiles[i].id] == profiles[i].email
    decreases |profiles|
  {
    var init := profiles[..|profiles| - 1];
    if i < |profiles| - 1 {
      EmailIndexOfUnique(init, i);
    }
  }

  /** `emailMap.get(product.seller_id) || undefined`: a product without a
      seller id, a seller without a profile, and an empty address all give
      no e-mail. */
  function SellerEmail(index: map<string, string>, sellerId: Option<string>): (r: Option<string>)
    ensures r.Some? <==> sellerId.Some? && sellerId.value in index && index[sellerId.value] != ""
    ensures r.Some? ==> r.value == index[sellerId.value]
  {
    match sellerId
    case None => None
    case Some(id) => if id in index && index[id] != "" then Some(index[id]) else None
  }

  /** `fetchData`'s mapping step; a failed product query shows nothing and a
      failed profile query leaves every product without an e-mail. */
  function JoinSellerEmails(products: Option<seq<Product>>, profiles: Option<seq<Profile>>): (r: seq<Product>)
    ensures products.None? ==> r == []
    ensures products.Some? ==> |r| == |products.value|
    ensures products.Some? ==> forall i :: 0 <= i < |r| ==>
      r[i] == products.value[i].(sellerEmail := r[i].sellerEmail)
    ensures profiles.None? ==> forall i :: 0 <= i < |r| ==> r[i].sellerEmail.None?
  {
    match products
    case None => []
    case Some(ps) =>
      var index := EmailIndex(profiles.GetOr([]));
      seq(|ps|, i requires 0 <= i < |ps| => ps[i].(sellerEmail := SellerEmail(index, ps[i].sellerId)))
  }

  /** With unique profile ids, a joined product's e-mail is present exactly
      when some profile has the product's seller id and a non-empty
      address, and it is then that address. */
  lemma JoinFindsProfile(ps: seq<Product>, profiles: seq<Profile>, i: int)
    requires UniqueProfileIds(profiles) && 0 <= i < |ps|
    ensures var e := JoinSellerEmails(Some(ps), Some(profiles))[i].sellerEmail;
      (e.Some? <==> exists q :: q in profiles && Some(q.id) == ps[i].sellerId && q.email != "")
      && (e.Some? ==> Profile(ps[i].sellerId.value, e.value) in profiles)
  {
    var index := EmailIndex(profiles);
    var e := JoinSellerEmails(Some(ps), Some(profiles))[i].sellerEmail;
    if ps[i].sellerId.Some? && ps[i].sellerId.value in index {
      var id := ps[i].sellerId.value;
      assert id in Ids(profiles);
      var k :| 0 <= k < |profiles| && profiles[k].id == id;
      EmailIndexOfUnique(profiles, k);
      forall q | q in profiles && q.id == id ensures q == profiles[k] {
        var m :| 0 <= m < |profiles| && profiles[m] == q;
        assert m == k;
      }
    }
  }
}

=== FILE: listing.dfy ===
/** The home page's listing pipeline: a text search, then a category
    filter, then exactly one mode (availability, creation window or price
    order) applied to the fetched products. The clock readings the page
    takes (`now` and local midnight) are inputs. */
module Listing {
  import opened Wrappers
  import opened Seqs
  import opened Text
  import opened Products
  import StableSort

  /** One narrowing pass. */
  datatype Criterion =
    | Matches(query: string)        // case-insensitive text search
    | InCategory(category: string)  // exact category match
    | IsAvailable
    | IsSold
    | CreatedSince(bound: int)      // inclusive lower bound, ms

  predicate Keeps(c: Criterion, p: Product) {
    match c
    case Matches(q) => Includes(Lower(p.title), Lower(q)) || Includes(Lower(p.description), Lower(q))
    case InCategory(k) => p.category == Some(k)
    case IsAvailable => p.isAvailable
    case IsSold => !p.isAvailable
    case CreatedSince(t) => p.createdAt >= t
  }

  /** `s.filter(...)`: the products the criterion keeps, in input order,
      each as often as it occurs in the input. */
  function Select(c: Criterion, s: seq<Product>): (r: seq<Product>)
    ensures IsSubsequence(r, s)
    ensures forall p :: p in r <==> p in s && Keeps(c, p)
    ensures forall p :: multiset(r)[p] == (if Keeps(c, p) then multiset(s)[p] else 0)
  {
    if s == [] then []
    else
      assert s == [s[0]] + s[1..];
      if Keeps(c, s[0]) then
        assert ([s[0]] + Select(c, s[1..]))[1..] == Select(c, s[1..]);
        [s[0]] + Select(c, s[1..])
      else Select(c, s[1..])
  }

  /** A criterion that keeps every product changes nothing. */
  lemma {:induction false} SelectKeepsAll(c: Criterion, s: seq<Product>)
    requires forall p :: p in s ==> Keeps(c, p)
    ensures Select(c, s) == s
  {
    if s != [] {
      SelectKeepsAll(c, s[1..]);
    }
  }

  /** "available" and "sold" split the input: every product lands in exactly
      one of the two, and between them they hold each product exactly as
      often as the input does. */
  lemma {:induction false} AvailabilityPartition(s: seq<Product>)
    ensures multiset(Select(IsAvailable, s)) + multiset(Select(IsSold, s)) == multiset(s)
    ensures |Select(IsAvailable, s)| + |Select(IsSold, s)| == |s|
    ensures forall p :: p in s ==> (p in Select(IsAvailable, s) <==> p !in Select(IsSold, s))
  {
    var a, b := Select(IsAvailable, s), Select(IsSold, s);
    assert multiset(a) + multiset(b) == multiset(s) by {
      forall p ensures (multiset(a) + multiset(b))[p] == multiset(s)[p] {
      }
    }
    assert |multiset(a) + multiset(b)| == |multiset(s)|;
  }

  /** The page's filter selector. Any value not listed behaves as "all". */
  datatype Mode = ShowAll | Available | Sold | Today | ThisWeek | PriceHighLow | PriceLowHigh

  function ParseMode(s: string): (m: Mode)
    ensures m == ShowAll <==> s !in ["available", "sold", "today", "this-week", "price-high-low", "price-low-high"]
  {
    if s == "available" then Available
    else if s == "sold" then Sold
    else if s == "today" then Today
    else if s == "this-week" then ThisWeek
    else if s == "price-high-low" then PriceHighLow
    else if s == "price-low-high" then PriceLowHigh
    else ShowAll
  }

  /** Seven days of 24 hours, in milliseconds. */
  const WeekMs: int := 7 * 24 * 60 * 60 * 1000

  /** The two clock readings the page takes: the current time and the
      start of the current local day, both in ms since the epoch. */
  datatype Clock = Clock(now: int, midnight: int)

  function Price(p: Product): int { p.price }
  function NegatedPrice(p: Product): int { -p.price }

  /** The mode pass. The two price modes sort a copy; the others filter. */
  function ApplyMode(m: Mode, s: seq<Product>, clock: Clock): seq<Product> {
    match m
    case ShowAll => s
    case Available => Select(IsAvailable, s)
    case Sold => Select(IsSold, s)
    case Today => Select(CreatedSince(clock.midnight), s)
    case ThisWeek => Select(CreatedSince(clock.now - WeekMs), s)
    case PriceHighLow => StableSort.SortBy(s, NegatedPrice)
    case PriceLowHigh => StableSort.SortBy(s, Price)
  }

  /** The search box: an empty query filters nothing. */
  function SearchPass(s: seq<Product>, query: string): seq<Product> {
    if query == "" then s else Select(Matches(query), s)
  }

  /** The category picker: "all" filters nothing. */
  function CategoryPass(s: seq<Product>, category: string): seq<Product> {
    if category == "all" then s else Select(InCategory(category), s)
  }

  /** The whole effect: search, then category, then mode. */
  function FilterProducts(products: seq<Product>, query: string, category: string, mode: string, clock: Clock): seq<Product> {
    ApplyMode(ParseMode(mode), CategoryPass(SearchPass(products, query), category), clock)
  }

  /** The search pass keeps exactly the products whose lower-cased title or
      description contains the lower-cased query, in input order; an empty
      query keeps everything. */
  lemma SearchPassSpec(s: seq<Product>, query: string)
    ensures query == "" ==> SearchPass(s, query) == s
    ensures IsSubsequence(SearchPass(s, query), s)
    ensures query != "" ==> forall p :: p in SearchPass(s, query) <==>
      p in s && (Includes(Lower(p.title), Lower(query)) || Includes(Lower(p.description), Lower(query)))
  {
    SubsequenceRefl(s);
  }

  /** The category pass keeps exactly the products whose category is the
      selection, in input order; "all" keeps everything. */
  lemma CategoryPassSpec(s: seq<Product>, category: string)
    ensures category == "all" ==> CategoryPass(s, category) == s
    ensures IsSubsequence(CategoryPass(s, category), s)
    ensures category != "all" ==> forall p :: p in CategoryPass(s, category) <==>
      p in s && p.category == Some(category)
  {
    SubsequenceRefl(s);
  }

  /** "today" and "this-week" keep a product exactly when it was created at
      or after the boundary, so a product created exactly at local midnight,
      or exactly seven days before `now`, is kept. */
  lemma TimeWindows(s: seq<Product>, clock: Clock)
    ensures forall p :: p in ApplyMode(Today, s, clock) <==> p in s && p.createdAt >= clock.midnight
    ensures forall p :: p in ApplyMode(ThisWeek, s, clock) <==> p in s && p.createdAt >= clock.now - 604800000
  {
  }

  /** "price-low-high" orders by price without dropping, adding or
      reordering equal-priced products. */
  lemma PriceLowHighSpec(s: seq<Product>, clock: Clock)
    ensures multiset(ApplyMode(PriceLowHigh, s, clock)) == multiset(s)
    ensures forall i, j :: 0 <= i < j < |ApplyMode(PriceLowHigh, s, clock)| ==>
      ApplyMode(PriceLowHigh, s, clock)[i].price <= ApplyMode(PriceLowHigh, s, clock)[j].price
    ensures forall k :: StableSort.WithKey(ApplyMode(PriceLowHigh, s, clock), Price, k) == StableSort.WithKey(s, Price, k)
  {
    var r := ApplyMode(PriceLowHigh, s, clock);
    forall k ensures StableSort.WithKey(r, Price, k) == StableSort.WithKey(s, Price, k) {
      StableSort.SortByStable(s, Price, k);
    }
  }

  /** Selecting by negated price `-k` selects by price `k`. */
  lemma {:induction false} WithNegatedPrice(s: seq<Product>, k: int)
    ensures StableSort.WithKey(s, NegatedPrice, -k) == StableSort.WithKey(s, Price, k)
  {
    if s != [] {
      WithNegatedPrice(s[1..], k);
    }
  }

  lemma DescendingFromNegated(r: seq<Product>)
    requires StableSort.Sorted(r, NegatedPrice)
    ensures forall i, j :: 0 <= i < j < |r| ==> r[i].price >= r[j].price
  {
    forall i, j | 0 <= i < j < |r| ensures r[i].price >= r[j].price {
      assert NegatedPrice(r[i]) <= NegatedPrice(r[j]);
    }
  }

  /** Stability carried over from the negated key to the price itself. */
  lemma NegatedSortStable(s: seq<Product>, k: int)
    ensures StableSort.WithKey(StableSort.SortBy(s, NegatedPrice), Price, k) == StableSort.WithKey(s, Price, k)
  {
    StableSort.SortByStable(s, NegatedPrice, -k);
    WithNegatedPrice(StableSort.SortBy(s, NegatedPrice), k);
    WithNegatedPrice(s, k);
  }

  /** "price-high-low" orders by descending price, again as a stable
      permutation of its input. */
  lemma PriceHighLowSpec(s: seq<Product>, clock: Clock)
    ensures multiset(ApplyMode(PriceHighLow, s, clock)) == multiset(s)
    ensures forall i, j :: 0 <= i < j < |ApplyMode(PriceHighLow, s, clock)| ==>
      ApplyMode(PriceHighLow, s, clock)[i].price >= ApplyMode(PriceHighLow, s, clock)[j].price
    ensures forall k :: StableSort.WithKey(ApplyMode(PriceHighLow, s, clock), Price, k) == StableSort.WithKey(s, Price, k)
  {
    var r := StableSort.SortBy(s, NegatedPrice);
    assert ApplyMode(PriceHighLow, s, clock) == r;
    DescendingFromNegated(r);
    forall k ensures StableSort.WithKey(r, Price, k) == StableSort.WithKey(s, Price, k) {
      NegatedSortStable(s, k);
    }
  }

  /** Every filtering mode returns a subsequence of its input, and the
      price modes a rearrangement of it. */
  lemma ModeShape(m: Mode, s: seq<Product>, clock: Clock)
    ensures m !in {PriceHighLow, PriceLowHigh} ==> IsSubsequence(ApplyMode(m, s, clock), s)
    ensures m in {PriceHighLow, PriceLowHigh} ==> multiset(ApplyMode(m, s, clock)) == multiset(s)
    ensures m == ShowAll ==> ApplyMode(m, s, clock) == s
  {
    SubsequenceRefl(s);
  }

  /** The whole pipeline never fabricates a product: a non-sorting mode
      yields a subsequence of the fetched list, and every mode yields at
      most the fetched products. With an empty query, category "all" and
      mode "all" (or any unlisted mode) the list is shown unchanged. */
  lemma FilterProductsShape(products: seq<Product>, query: string, category: string, mode: string, clock: Clock)
    ensures ParseMode(mode) !in {PriceHighLow, PriceLowHigh} ==>
      IsSubsequence(FilterProducts(products, query, category, mode, clock), products)
    ensures multiset(FilterProducts(products, query, category, mode, clock)) <= multiset(products)
    ensures query == "" && category == "all" && ParseMode(mode) == ShowAll ==>
      FilterProducts(products, query, category, mode, clock) == products
  {
    var a := SearchPass(products, query);
    var b := CategoryPass(a, category);
    var r := FilterProducts(products, query, category, mode, clock);
    SearchPassSpec(products, query);
    CategoryPassSpec(a, category);
    SubsequenceTrans(b, a, products);
    ModeShape(ParseMode(mode), b, clock);
    SubsequenceMultiset(b, products);
    if ParseMode(mode) !in {PriceHighLow, PriceLowHigh} {
      SubsequenceTrans(r, b, products);
      SubsequenceMultiset(r, products);
    }
  }
}

=== FILE: navigation.dfy ===
/** The navigation bar and the side bar: which links they render for the
    signed-in user's roles, and whether they offer Login or Logout. */
module Navigation {
  import opened AuthContext

  datatype Link = Home | SellerDashboardLink | AdminDashboardLink | Login | Logout

  /** `publicLinks`. */
  const PublicLinks: seq<Link> := [Home]

  /** `authenticatedLinks`: the seller dashboard for sellers and admins,
      then the admin dashboard for admins. */
  function AuthenticatedLinks(roles: seq<Role>): seq<Link> {
    (if HasRole(roles, Seller) || HasRole(roles, Admin) then [SellerDashboardLink] else [])
    + (if HasRole(roles, Admin) then [AdminDashboardLink] else [])
  }

  /** The navigation bar's `NavLinks`, in render order. */
  function NavbarLinks(signedIn: bool, roles: seq<Role>): (links: seq<Link>)
    ensures |links| >= 2 && links[0] == Home && links[|links| - 1] == (if signedIn then Logout else Login)
    ensures SellerDashboardLink in links <==> signedIn && (Seller in roles || Admin in roles)
    ensures AdminDashboardLink in links <==> signedIn && Admin in roles
    ensures (Login in links) != (Logout in links)
  {
    PublicLinks + (if signedIn then AuthenticatedLinks(roles) else []) + [if signedIn then Logout else Login]
  }

  /** The side bar's two sections: the `nav` links and the footer button. */
  function SidebarSections(signedIn: bool, roles: seq<Role>): (r: (seq<Link>, Link))
    ensures r.1 == (if signedIn then Logout else Login)
    ensures Login !in r.0 && Logout !in r.0
  {
    (PublicLinks + (if signedIn then AuthenticatedLinks(roles) else []), if signedIn then Logout else Login)
  }

  /** The admin link, when present, follows the seller link. */
  lemma AdminLinkFollowsSellerLink(signedIn: bool, roles: seq<Role>)
    ensures var links := NavbarLinks(signedIn, roles);
      forall i :: 0 <= i < |links| && links[i] == AdminDashboardLink ==>
        i > 0 && links[i - 1] == SellerDashboardLink
  {
  }

  /** Read top to bottom, the side bar shows exactly the navigation bar's
      links in the same order. */
  lemma SidebarMatchesNavbar(signedIn: bool, roles: seq<Role>)
    ensures SidebarSections(signedIn, roles).0 + [SidebarSections(signedIn, roles).1] == NavbarLinks(signedIn, roles)
  {
  }
}

=== FILE: product_card.dfy ===
/** A product card: the like button's state machine, the like count and
    admin-endorsement badge derived from the `product_likes` rows, and which
    controls the card shows. */
module ProductCard {
  import opened Wrappers
  import opened Products
  import opened AuthContext

  /** One row of `product_likes`; the store keeps at most one per pair. */
  datatype LikeRow = LikeRow(productId: string, userId: string)

  /** The card's like state: `liked`, `likeCount`, `adminLiked`. */
  datatype LikeState = LikeState(liked: bool, likeCount: nat, adminLiked: bool)

  const InitialLikes := LikeState(false, 0, false)

  /** The store answering `select user_id from product_likes where
      product_id = pid`, in table order. */
  function LikersOf(table: seq<LikeRow>, pid: string): (r: seq<string>)
    ensures |r| <= |table|
    ensures forall u :: u in r <==> LikeRow(pid, u) in table
    ensures forall u :: multiset(r)[u] == multiset(table)[LikeRow(pid, u)]
  {
    if table == [] then []
    else
      assert table == [table[0]] + table[1..];
      (if table[0].productId == pid then [table[0].userId] else []) + LikersOf(table[1..], pid)
  }

  /** The store answering `select user_id from user_roles where role =
      'admin' and user_id in likers`. */
  function AdminsAmong(roles: seq<RoleRow>, likers: seq<string>): (r: seq<string>)
    ensures forall u :: u in r <==> RoleRow(u, Admin) in roles && u in likers
  {
    if roles == [] then []
    else (if roles[0].role == Admin && roles[0].userId in likers then [roles[0].userId] else [])
         + AdminsAmong(roles[1..], likers)
  }

  /** Some liker holds the admin role in the role table. */
  ghost predicate AdminEndorsed(likers: seq<string>, roles: seq<RoleRow>) {
    exists u :: u in likers && RoleRow(u, Admin) in roles
  }

  lemma AdminsAmongNonEmpty(roles: seq<RoleRow>, likers: seq<string>)
    ensures AdminsAmong(roles, likers) != [] <==> AdminEndorsed(likers, roles)
  {
    var r := AdminsAmong(roles, likers);
    if r != [] {
      assert r[0] in r;
    }
  }

  /** `fetchLikes` as written. `likes` is the like query's answer (`None`
      when it failed) and `roleTable` the role table the admin query runs
      against (`None` when that query failed). The admin flag is only
      recomputed when some like came back. */
  function FetchLikes(s: LikeState, viewer: Option<string>, likes: Option<seq<string>>,
                      roleTable: Option<seq<RoleRow>>): (r: LikeState)
    ensures r.likeCount == (if likes.Some? then |likes.value| else 0)
    ensures viewer.Some? ==> (r.liked <==> likes.Some? && viewer.value in likes.value)
    ensures viewer.None? ==> r.liked == s.liked
    ensures likes.Some? && likes.value != [] ==>
      (r.adminLiked <==> roleTable.Some? && AdminEndorsed(likes.value, roleTable.value))
    ensures !(likes.Some? && likes.value != []) ==> r.adminLiked == s.adminLiked
  {
    var count := if likes.Some? then |likes.value| else 0;
    var liked := if viewer.Some? then likes.Some? && viewer.value in likes.value else s.liked;
    var admin :=
      if likes.Some? && likes.value != [] then
        (match roleTable
         case None => false
         case Some(t) => AdminsAmongNonEmpty(t, likes.value); AdminsAmong(t, likes.value) != [])
      else s.adminLiked;
    LikeState(liked, count, admin)
  }

  /** The admin badge outlives the last like: a card showing one like by an
      admin that refetches after the admin's unlike reports zero likes and
      still shows "Liked by Admin". */
  lemma AdminBadgeOutlivesLastLike()
    ensures var r := FetchLikes(LikeState(false, 1, true), Some("a"), Some([]), Some([RoleRow("a", Admin)]));
      r.likeCount == 0 && r.adminLiked
  {
  }

  /** `fetchLikes` with the admin flag recomputed on every refetch, so it
      is false whenever no like came back. */
  function FetchLikesFixed(s: LikeState, viewer: Option<string>, likes: Option<seq<string>>,
                           roleTable: Option<seq<RoleRow>>): (r: LikeState)
    ensures r.likeCount == (if likes.Some? then |likes.value| else 0)
    ensures viewer.Some? ==> (r.liked <==> likes.Some? && viewer.value in likes.value)
    ensures viewer.None? ==> r.liked == s.liked
    ensures r.adminLiked <==> likes.Some? && roleTable.Some? && AdminEndorsed(likes.value, roleTable.value)
    ensures r.likeCount == 0 ==> !r.adminLiked
  {
    var r := FetchLikes(s, viewer, likes, roleTable);
    if likes.Some? && likes.value != [] then r else r.(adminLiked := false)
  }

  /** The write a click issues. */
  datatype LikeWrite =
    | InsertLike(row: LikeRow)                    // insert the (product, viewer) pair
    | DeleteLike(productId: string, userId: string) // delete rows matching the pair

  /** What a click on the like button does. */
  datatype LikeClick =
    | SignInRequired                                         // "Authentication Required" notice, no write
    | Wrote(write: LikeWrite, state: LikeState, refetch: bool)

  /** `handleLike`: without a viewer only the notice fires; otherwise the
      click deletes the viewer's like when liked and inserts it when not,
      and flips `liked` (then refetches) only if the write succeeded. */
  function HandleLike(s: LikeState, viewer: Option<string>, pid: string, writeOk: bool): (c: LikeClick)
    ensures viewer.None? <==> c.SignInRequired?
    ensures c.Wrote? && s.liked ==> c.write == DeleteLike(pid, viewer.value)
    ensures c.Wrote? && !s.liked ==> c.write == InsertLike(LikeRow(pid, viewer.value))
    ensures c.Wrote? && writeOk ==> c.state == s.(liked := !s.liked) && c.refetch
    ensures c.Wrote? && !writeOk ==> c.state == s && !c.refetch
  {
    match viewer
    case None => SignInRequired
    case Some(u) =>
      var w := if s.liked then DeleteLike(pid, u) else InsertLike(LikeRow(pid, u));
      if writeOk then Wrote(w, s.(liked := !s.liked), true) else Wrote(w, s, false)
  }

  /** The table without the rows of one (product, user) pair. */
  function RemoveLike(table: seq<LikeRow>, pid: string, uid: string): (r: seq<LikeRow>)
    ensures forall row :: row in r <==> row in table && row != LikeRow(pid, uid)
    ensures forall row :: multiset(r)[row] == if row == LikeRow(pid, uid) then 0 else multiset(table)[row]
  {
    if table == [] then []
    else
      assert table == [table[0]] + table[1..];
      (if table[0] == LikeRow(pid, uid) then [] else [table[0]]) + RemoveLike(table[1..], pid, uid)
  }

  /** The store applying a like write; the pair's uniqueness constraint
      rejects a second insert of the same pair. */
  function ApplyLikeWrite(table: seq<LikeRow>, w: LikeWrite): (r: Reply<seq<LikeRow>>)
    ensures w.InsertLike? ==> (r.Ok? <==> w.row !in table)
    ensures w.DeleteLike? ==> r.Ok?
  {
    match w
    case InsertLike(row) => if row in table then Err("duplicate key") else Ok(table + [row])
    case DeleteLike(pid, uid) => Ok(RemoveLike(table, pid, uid))
  }

  /** The heart and the count agree with the store. */
  ghost predicate HeartAndCountInSync(s: LikeState, table: seq<LikeRow>, viewer: string, pid: string) {
    && s.liked == (LikeRow(pid, viewer) in table)
    && s.likeCount == |LikersOf(table, pid)|
  }

  /** The card agrees with the store: its flags are what a fresh fetch of
      the table would derive. */
  ghost predicate InSync(s: LikeState, table: seq<LikeRow>, roles: seq<RoleRow>, viewer: string, pid: string) {
    && HeartAndCountInSync(s, table, viewer, pid)
    && s.adminLiked == AdminEndorsed(LikersOf(table, pid), roles)
  }

  /** One click by a signed-in viewer against the store, followed by the
      refetch a successful write triggers, with `fetchLikes` as written.
      The heart and the count follow the store; the admin flag follows it
      only while some like remains and otherwise keeps its old value. */
  function ClickAsWritten(s: LikeState, table: seq<LikeRow>, roles: seq<RoleRow>, viewer: string, pid: string)
    : (r: (LikeState, seq<LikeRow>))
    ensures HeartAndCountInSync(s, table, viewer, pid) ==> HeartAndCountInSync(r.0, r.1, viewer, pid)
    ensures var w := ApplyLikeWrite(table, HandleLike(s, Some(viewer), pid, true).write);
      && (w.Err? ==> r == (s, table))
      && (w.Ok? ==> r.1 == w.value)
      && (w.Ok? && LikersOf(w.value, pid) != [] ==>
            (r.0.adminLiked <==> AdminEndorsed(LikersOf(w.value, pid), roles)))
      && (w.Ok? && LikersOf(w.value, pid) == [] ==> r.0.adminLiked == s.adminLiked)
  {
    var c := HandleLike(s, Some(viewer), pid, true);
    match ApplyLikeWrite(table, c.write)
    case Err(_) => (s, table)
    case Ok(t) => (FetchLikes(c.state, Some(viewer), Some(LikersOf(t, pid)), Some(roles)), t)
  }

  /** The like half of `LikeThenUnlikeAsWritten`. */
  lemma LikeStepAsWritten(s: LikeState, table: seq<LikeRow>, roles: seq<RoleRow>, viewer: string, pid: string)
    requires HeartAndCountInSync(s, table, viewer, pid) && !s.liked
    ensures var (s1, t1) := ClickAsWritten(s, table, roles, viewer, pid);
            && t1 == table + [LikeRow(pid, viewer)] && s1.liked
            && HeartAndCountInSync(s1, t1, viewer, pid)
            && (LikersOf(table, pid) == [] ==> (s1.adminLiked <==> RoleRow(viewer, Admin) in roles))
  {
    var t1 := table + [LikeRow(pid, viewer)];
    assert ApplyLikeWrite(table, InsertLike(LikeRow(pid, viewer))) == Ok(t1);
    assert viewer in LikersOf(t1, pid);
    if LikersOf(table, pid) == [] {
      forall u | u in LikersOf(t1, pid) ensures u == viewer {
        assert LikeRow(pid, u) in table + [LikeRow(pid, viewer)];
      }
    }
  }

  /** The unlike half of `LikeThenUnlikeAsWritten`. */
  lemma UnlikeStepAsWritten(s1: LikeState, table: seq<LikeRow>, roles: seq<RoleRow>, viewer: string, pid: string)
    requires LikeRow(pid, viewer) !in table && s1.liked
    requires HeartAndCountInSync(s1, table + [LikeRow(pid, viewer)], viewer, pid)
    ensures var (s2, t2) := ClickAsWritten(s1, table + [LikeRow(pid, viewer)], roles, viewer, pid);
            && t2 == table && !s2.liked && s2.likeCount == |LikersOf(table, pid)|
            && (LikersOf(table, pid) != [] ==> (s2.adminLiked <==> AdminEndorsed(LikersOf(table, pid), roles)))
            && (LikersOf(table, pid) == [] ==> s2.adminLiked == s1.adminLiked)
  {
    RemoveAbsentAppended(table, pid, viewer);
  }

  /** With the refetch as written, like then unlike restores the store, the
      heart and the count. The admin flag is restored only when other likes
      remain; on a product nobody else liked it ends up saying whether the
      viewer is an admin, whatever it said before. */
  lemma LikeThenUnlikeAsWritten(s: LikeState, table: seq<LikeRow>, roles: seq<RoleRow>, viewer: string, pid: string)
    requires HeartAndCountInSync(s, table, viewer, pid) && !s.liked
    ensures var (s1, t1) := ClickAsWritten(s, table, roles, viewer, pid);
            var (s2, t2) := ClickAsWritten(s1, t1, roles, viewer, pid);
            && s1.liked && t2 == table && s2.liked == s.liked && s2.likeCount == s.likeCount
            && (LikersOf(table, pid) != [] ==> (s2.adminLiked <==> AdminEndorsed(LikersOf(table, pid), roles)))
            && (LikersOf(table, pid) == [] ==> (s2.adminLiked <==> RoleRow(viewer, Admin) in roles))
  {
    LikeStepAsWritten(s, table, roles, viewer, pid);
    var (s1, t1) := ClickAsWritten(s, table, roles, viewer, pid);
    UnlikeStepAsWritten(s1, table, roles, viewer, pid);
  }

  /** One click by a signed-in viewer against the store, followed by the
      corrected refetch (`FetchLikesFixed`) a successful write triggers. */
  function Click(s: LikeState, table: seq<LikeRow>, roles: seq<RoleRow>, viewer: string, pid: string)
    : (r: (LikeState, seq<LikeRow>))
    ensures InSync(s, table, roles, viewer, pid) ==> InSync(r.0, r.1, roles, viewer, pid)
  {
    var w := if s.liked then DeleteLike(pid, viewer) else InsertLike(LikeRow(pid, viewer));
    match ApplyLikeWrite(table, w)
    case Err(_) => (s, table)
    case Ok(t) =>
      var c := HandleLike(s, Some(viewer), pid, true);
      (FetchLikesFixed(c.state, Some(viewer), Some(LikersOf(t, pid)), Some(roles)), t)
  }

  lemma {:induction false} RemoveAbsentAppended(table: seq<LikeRow>, pid: string, uid: string)
    requires LikeRow(pid, uid) !in table
    ensures RemoveLike(table + [LikeRow(pid, uid)], pid, uid) == table
    decreases |table|
  {
    if table == [] {
      assert [LikeRow(pid, uid)][1..] == [];
    } else {
      assert (table + [LikeRow(pid, uid)])[1..] == table[1..] + [LikeRow(pid, uid)];
      RemoveAbsentAppended(table[1..], pid, uid);
    }
  }

  /** Liking then unliking restores everything: the store holds the same
      rows again, and the card shows the same count, the viewer's like
      cleared and the same admin badge as before. */
  lemma LikeThenUnlike(s: LikeState, table: seq<LikeRow>, roles: seq<RoleRow>, viewer: string, pid: string)
    requires InSync(s, table, roles, viewer, pid) && !s.liked
    ensures var (s1, t1) := Click(s, table, roles, viewer, pid);
            var (s2, t2) := Click(s1, t1, roles, viewer, pid);
            s1.liked && t2 == table && s2 == s
  {
    var (s1, t1) := Click(s, table, roles, viewer, pid);
    assert t1 == table + [LikeRow(pid, viewer)];
    RemoveAbsentAppended(table, pid, viewer);
  }

  /** A control the card renders. */
  datatype Control =
    | LikeButton(disabled: bool)
    | CommentsButton(disabled: bool)
    | ContactButton(disabled: bool)
    | ToggleSoldButton(caption: string)
    | EditButton
    | DeleteButton

  /** The card's controls, in render order. Contact needs a truthy seller
      e-mail; the owner controls need `canEdit`. */
  function CardControls(p: Product, canEdit: bool): seq<Control> {
    var off := !p.isAvailable;
    [LikeButton(off), CommentsButton(off)]
    + (if !canEdit && p.sellerEmail.Some? && p.sellerEmail.value != "" then [ContactButton(off)] else [])
    + (if canEdit then [ToggleSoldButton(if p.isAvailable then "Mark as Sold" else "Mark as Available"),
                        EditButton, DeleteButton] else [])
  }

  /** The like, comment and contact buttons are disabled exactly when the
      product is sold; contact is offered exactly to non-owners of a product
      with a seller e-mail; edit, delete and the toggle exactly to owners,
      the toggle reading "Mark as Sold" exactly when the product is
      available. */
  lemma CardControlsSpec(p: Product, canEdit: bool)
    ensures var cs := CardControls(p, canEdit);
      && (forall c :: c in cs && (c.LikeButton? || c.CommentsButton? || c.ContactButton?) ==>
            (c.disabled <==> !p.isAvailable))
      && LikeButton(!p.isAvailable) in cs && CommentsButton(!p.isAvailable) in cs
      && ((exists c :: c in cs && c.ContactButton?) <==> !canEdit && p.sellerEmail.Some? && p.sellerEmail.value != "")
      && (EditButton in cs <==> canEdit) && (DeleteButton in cs <==> canEdit)
      && ((exists c :: c in cs && c.ToggleSoldButton?) <==> canEdit)
      && (forall c :: c in cs && c.ToggleSoldButton? ==> (c.caption == "Mark as Sold" <==> p.isAvailable))
  {
    var cs := CardControls(p, canEdit);
    if !canEdit && p.sellerEmail.Some? && p.sellerEmail.value != "" {
      assert ContactButton(!p.isAvailable) in cs;
    }
    if canEdit {
      assert ToggleSoldButton(if p.isAvailable then "Mark as Sold" else "Mark as Available") in cs;
    }
  }
}

=== FILE: product_details.dfy ===
/** The comment dialog of a product: who may post, the per-author quota of
    ten comments, what a submission sends, and how authors are named. */
module ProductDetails {
  import opened Wrappers
  import opened Text
  import opened AuthContext

  /** `maxComments`. */
  const MaxComments: nat := 10

  /** One row of `product_comments`. */
  datatype CommentRow = CommentRow(productId: string, sellerId: string, text: string)

  /** The profile fields shown next to a comment. */
  datatype AuthorProfile = AuthorProfile(fullName: Option<string>, email: string)

  /** `profile || { full_name: null, email: "" }`, then
      `full_name || email || "Seller"`: empty strings count as missing. */
  function DisplayName(profile: Option<AuthorProfile>): (name: string)
    ensures name != ""
    ensures profile.None? ==> name == "Seller"
    ensures profile.Some? && profile.value.fullName.Some? && profile.value.fullName.value != "" ==>
      name == profile.value.fullName.value
    ensures profile.Some? && !(profile.value.fullName.Some? && profile.value.fullName.value != "") ==>
      name == (if profile.value.email != "" then profile.value.email else "Seller")
  {
    var p := profile.GetOr(AuthorProfile(None, ""));
    if p.fullName.Some? && p.fullName.value != "" then p.fullName.value
    else if p.email != "" then p.email
    else "Seller"
  }

  /** The dialog's state. */
  datatype DetailsState = DetailsState(commentText: string, commentCount: nat, isSeller: bool)

  const InitialDetails := DetailsState("", 0, false)

  /** `checkSellerRole`: with a viewer, whether the viewer's role rows hold
      "seller" or "admin" (a failed query counts as neither); without a
      viewer the flag is left as it was. */
  function CheckSellerRole(s: DetailsState, viewer: Option<string>, roles: Option<seq<Role>>): (r: DetailsState)
    ensures r.commentText == s.commentText && r.commentCount == s.commentCount
    ensures viewer.None? ==> r.isSeller == s.isSeller
    ensures viewer.Some? ==> (r.isSeller <==> roles.Some? && (Seller in roles.value || Admin in roles.value))
  {
    if viewer.None? then s
    else s.(isSeller := roles.Some? && (HasRole(roles.value, Seller) || HasRole(roles.value, Admin)))
  }

  /** The comments in `rows` written by `author`. */
  function OwnComments(rows: seq<CommentRow>, author: string): nat {
    if rows == [] then 0
    else (if rows[0].sellerId == author then 1 else 0) + OwnComments(rows[1..], author)
  }

  /** The store answering `select ... from product_comments where
      product_id = pid`. */
  function CommentsOf(table: seq<CommentRow>, pid: string): (r: seq<CommentRow>)
    ensures forall c :: c in r <==> c in table && c.productId == pid
  {
    if table == [] then []
    else (if table[0].productId == pid then [table[0]] else []) + CommentsOf(table[1..], pid)
  }

  /** The fetch keeps every copy of this product's rows: two identical
      comments by the same author both come back, and both count towards
      the quota. */
  lemma {:induction false} CommentsOfCounts(table: seq<CommentRow>, pid: string)
    ensures forall c :: multiset(CommentsOf(table, pid))[c] == if c.productId == pid then multiset(table)[c] else 0
    decreases |table|
  {
    if table != [] {
      assert table == [table[0]] + table[1..];
      CommentsOfCounts(table[1..], pid);
    }
  }

  /** `fetchComments`: on success and with a viewer, the viewer's own
      comment count is recounted; otherwise it is kept. */
  function FetchComments(s: DetailsState, viewer: Option<string>, reply: Reply<seq<CommentRow>>): (r: DetailsState)
    ensures r.commentText == s.commentText && r.isSeller == s.isSeller
    ensures reply.Ok? && viewer.Some? ==> r.commentCount == OwnComments(reply.value, viewer.value)
    ensures !(reply.Ok? && viewer.Some?) ==> r.commentCount == s.commentCount
  {
    if reply.Ok? && viewer.Some? then s.(commentCount := OwnComments(reply.value, viewer.value)) else s
  }

  /** What pressing send does. */
  datatype Submission =
    | Ignored                      // no viewer, not a seller, or blank text: nothing happens
    | LimitReached                 // the "Limit Reached" notice, no insert
    | Posted(row: CommentRow)      // inserted; the box is cleared and the list refetched
    | PostFailed(row: CommentRow)  // insert attempted and failed; the text is kept

  /** `handleSubmitComment`. */
  function SubmitComment(s: DetailsState, viewer: Option<string>, pid: string, insertOk: bool)
    : (r: (Submission, DetailsState))
    ensures viewer.None? || !s.isSeller || Trim(s.commentText) == [] <==> r.0 == Ignored
    ensures r.0 == LimitReached <==>
      viewer.Some? && s.isSeller && Trim(s.commentText) != [] && s.commentCount >= MaxComments
    ensures r.0.Posted? || r.0.PostFailed? ==>
      r.0.row == CommentRow(pid, viewer.value, Trim(s.commentText)) && Trim(s.commentText) != []
    ensures r.0.Posted? <==> r.0 != Ignored && r.0 != LimitReached && insertOk
    ensures r.1 == (if r.0.Posted? then s.(commentText := "") else s)
  {
    if viewer.None? || !s.isSeller || Trim(s.commentText) == [] then (Ignored, s)
    else if s.commentCount >= MaxComments then (LimitReached, s)
    else
      var row := CommentRow(pid, viewer.value, Trim(s.commentText));
      if insertOk then (Posted(row), s.(commentText := "")) else (PostFailed(row), s)
  }

  /** The dialog's footer. */
  datatype Footer = NoForm | LimitNotice | CommentForm

  /** Only sellers see a footer, and it turns into the limit notice at ten. */
  function FooterFor(s: DetailsState): (f: Footer)
    ensures f == NoForm <==> !s.isSeller
    ensures f == LimitNotice <==> s.isSeller && s.commentCount >= MaxComments
  {
    if !s.isSeller then NoForm
    else if s.commentCount >= MaxComments then LimitNotice
    else CommentForm
  }

  /** One send by `viewer`, the store's insert on success, and the refetch
      that follows it. */
  function SendAndRefresh(s: DetailsState, table: seq<CommentRow>, viewer: string, pid: string, insertOk: bool)
    : (r: (DetailsState, seq<CommentRow>))
  {
    var (sub, s1) := SubmitComment(s, Some(viewer), pid, insertOk);
    match sub
    case Posted(row) =>
      var t := table + [row];
      (FetchComments(s1, Some(viewer), Ok(CommentsOf(t, pid))), t)
    case _ => (s, table)
  }

  lemma {:induction false} OwnCommentsAppend(rows: seq<CommentRow>, c: CommentRow, author: string)
    ensures OwnComments(rows + [c], author) == OwnComments(rows, author) + (if c.sellerId == author then 1 else 0)
    decreases |rows|
  {
    if rows == [] {
      assert [c][1..] == [];
    } else {
      assert (rows + [c])[1..] == rows[1..] + [c];
      OwnCommentsAppend(rows[1..], c, author);
    }
  }

  lemma {:induction false} CommentsOfAppend(table: seq<CommentRow>, c: CommentRow, pid: string)
    ensures CommentsOf(table + [c], pid) == CommentsOf(table, pid) + (if c.productId == pid then [c] else [])
    decreases |table|
  {
    if table == [] {
      assert [c][1..] == [];
    } else {
      assert (table + [c])[1..] == table[1..] + [c];
      CommentsOfAppend(table[1..], c, pid);
    }
  }

  /** The dialog's count agrees with the store. */
  ghost predicate CountInSync(s: DetailsState, table: seq<CommentRow>, viewer: string, pid: string) {
    s.commentCount == OwnComments(CommentsOf(table, pid), viewer)
  }

  /** Used one send at a time, the quota holds: a send lands exactly when
      the viewer has fewer than ten comments on the product, it adds
      exactly one, and so an author who starts at or below ten never ends
      above ten. */
  lemma SendKeepsQuota(s: DetailsState, table: seq<CommentRow>, viewer: string, pid: string, insertOk: bool)
    requires CountInSync(s, table, viewer, pid)
    ensures var (s1, t1) := SendAndRefresh(s, table, viewer, pid, insertOk);
      && CountInSync(s1, t1, viewer, pid)
      && (t1 != table <==> s.isSeller && Trim(s.commentText) != [] && s.commentCount < MaxComments && insertOk)
      && (t1 != table ==> s1.commentCount == s.commentCount + 1)
      && (s.commentCount <= MaxComments ==> s1.commentCount <= MaxComments)
  {
    var (sub, _) := SubmitComment(s, Some(viewer), pid, insertOk);
    if sub.Posted? {
      CommentsOfAppend(table, sub.row, pid);
      OwnCommentsAppend(CommentsOf(table, pid), sub.row, viewer);
      assert |table + [sub.row]| != |table|;
    }
  }

  /** The tenth send of a seller goes through and the eleventh is refused. */
  lemma TenthPassesEleventhRefused(s: DetailsState, viewer: string, pid: string)
    requires s.isSeller && Trim(s.commentText) != []
    ensures s.commentCount == 9 ==> SubmitComment(s, Some(viewer), pid, true).0.Posted?
    ensures s.commentCount == 10 ==> SubmitComment(s, Some(viewer), pid, true).0 == LimitReached
  {
  }
}

=== FILE: products.dfy ===
/** The product record as the pages receive it from the `products` table,
    and the two single-row updates the dashboards send to it. */
module Products {
  import opened Wrappers

  /** One listing. `price` is in the smallest currency unit (paise) and
      `createdAt` in milliseconds since the epoch; `category` is the stored
      string, which the listing page compares without validating it. */
  datatype Product = Product(
    id: string,
    title: string,
    description: string,
    price: int,
    imageUrl: Option<string>,
    category: Option<string>,
    sellerEmail: Option<string>,
    sellerId: Option<string>,
    createdAt: int,
    isAvailable: bool,
    isSponsored: Option<bool>)

  /** Product ids are the table's primary key. */
  ghost predicate UniqueIds(s: seq<Product>) {
    forall i, j :: 0 <= i < j < |s| ==> s[i].id != s[j].id
  }

  /** The store applying `update({ is_available: v }).eq("id", id)`. */
  function SetAvailability(s: seq<Product>, id: string, v: bool): (r: seq<Product>)
    ensures |r| == |s|
    ensures forall i :: 0 <= i < |s| && s[i].id != id ==> r[i] == s[i]
    ensures forall i :: 0 <= i < |s| && s[i].id == id ==> r[i] == s[i].(isAvailable := v)
  {
    if s == [] then []
    else [if s[0].id == id then s[0].(isAvailable := v) else s[0]] + SetAvailability(s[1..], id, v)
  }

  /** The store applying `update({ is_sponsored: v }).eq("id", id)`. */
  function SetSponsored(s: seq<Product>, id: string, v: bool): (r: seq<Product>)
    ensures |r| == |s|
    ensures forall i :: 0 <= i < |s| && s[i].id != id ==> r[i] == s[i]
    ensures forall i :: 0 <= i < |s| && s[i].id == id ==> r[i] == s[i].(isSponsored := Some(v))
  {
    if s == [] then []
    else [if s[0].id == id then s[0].(isSponsored := Some(v)) else s[0]] + SetSponsored(s[1..], id, v)
  }
}

=== FILE: seller_dashboard.dfy ===
/** The seller dashboard: who may open it, the product form (prefill on
    edit, reset), what a submission writes, the first-product celebration,
    and the sold/available toggle. */
module SellerDashboard {
  import opened Wrappers
  import opened Products
  import opened AuthContext
  import Categories
  import opened DashboardCommon

  /** Only sellers and admins are admitted. */
  function SellerGate(authLoading: bool, user: Option<string>, roles: seq<Role>): (g: Gate)
    ensures g == RedirectToAuth <==> !authLoading && user.None?
    ensures g == DenyAndGoHome <==> !authLoading && user.Some? && Seller !in roles && Admin !in roles
    ensures g == LoadData <==> user.Some? && (authLoading || Seller in roles || Admin in roles)
  {
    PageGate(authLoading, user, HasRole(roles, Seller) || HasRole(roles, Admin))
  }

  /** The form's state. `price` is the number in the price box, `None`
      while the box is empty. */
  datatype ProductForm = ProductForm(
    title: string,
    description: string,
    price: Option<int>,
    category: string,
    imageFile: Option<ImageFile>,
    editing: Option<Product>,
    dialogOpen: bool)

  /** `resetForm`'s result, which is also the initial form. */
  const ClosedForm := ProductForm("", "", None, Categories.Name(Categories.DefaultCategory), None, None, false)

  /** `handleEdit`: copies the product into the form and opens the dialog.
      A missing (or empty) category falls back to "Study Material"; a file
      chosen earlier stays chosen. */
  function EditProduct(f: ProductForm, p: Product): (r: ProductForm)
    ensures r.editing == Some(p) && r.dialogOpen
    ensures r.title == p.title && r.description == p.description && r.price == Some(p.price)
    ensures p.category.Some? && p.category.value != "" ==> r.category == p.category.value
    ensures !(p.category.Some? && p.category.value != "") ==> r.category == "Study Material"
    ensures r.imageFile == f.imageFile
  {
    var category := if p.category.Some? && p.category.value != "" then p.category.value
                    else Categories.Name(Categories.DefaultCategory);
    f.(title := p.title, description := p.description, price := Some(p.price),
       category := category, editing := Some(p), dialogOpen := true)
  }

  /** `resetForm` clears every field, whatever the form held. */
  lemma ResetClearsEverything()
    ensures ClosedForm.title == "" && ClosedForm.description == "" && ClosedForm.price.None?
    ensures ClosedForm.category == "Study Material"
    ensures ClosedForm.imageFile.None? && ClosedForm.editing.None? && !ClosedForm.dialogOpen
  {
  }

  /** The record a submission writes. */
  datatype ProductData = ProductData(
    title: string, description: string, price: Option<int>, category: string,
    imageUrl: Option<string>, sellerId: string)

  datatype ProductWrite =
    | InsertProduct(data: ProductData)
    | UpdateProduct(id: string, data: ProductData)

  /** The notice a submission ends with. */
  datatype Notice =
    | Silent
    | FileTooLarge
    | UploadFailed
    | UpdateFailed
    | Updated
    | CreateFailed
    | Created
    | FirstProductCreated   // "Congratulations on your first product!"

  datatype SubmitResult = SubmitResult(
    write: Option<ProductWrite>,  // the product write issued, if any
    notice: Notice,
    celebrate: bool,              // the celebration confetti
    refetch: bool,                // the product list is fetched again
    form: ProductForm)

  /** `handleSubmit`. `products` is the page's list before the submission,
      `storage` the bucket's answer should the chosen file be sent, and
      `writeOk` whether the product write succeeds. */
  function HandleSubmit(user: Option<string>, f: ProductForm, products: seq<Product>,
                        storage: Reply<string>, writeOk: bool): (r: SubmitResult)
    ensures user.None? ==> r.write.None? && r.form == f
    ensures r.write.Some? ==> r.write.value.data.sellerId == user.value
    ensures r.write.Some? ==> (r.write.value.UpdateProduct? <==> f.editing.Some?)
    ensures r.write.Some? && f.editing.Some? ==> r.write.value.id == f.editing.value.id
    ensures r.write.Some? ==> r.write.value.data == ProductData(f.title, f.description, f.price, f.category,
                                                                r.write.value.data.imageUrl, user.value)
    ensures user.Some? && f.imageFile.None? ==>
      r.write.Some? && r.write.value.data.imageUrl == (if f.editing.Some? then f.editing.value.imageUrl else None)
    ensures f.imageFile.Some? && UploadImage(f.imageFile.value, ProductImageCap, true, storage).Url().None? ==>
      r.write.None? && r.form == f
    ensures user.Some? && f.imageFile.Some? && f.imageFile.value.size > ProductImageCap ==>
      r.write.None? && r.notice == FileTooLarge
    ensures user.Some? && f.imageFile.Some? ==>
      var u := UploadImage(f.imageFile.value, ProductImageCap, true, storage);
      && (u.Url().Some? && u.Url().value != "" ==> r.write.Some? && r.write.value.data.imageUrl == u.Url())
      && (u.Sent? && u.reply.Err? ==> r.write.None? && r.notice == UploadFailed)
      && (u == Sent(Ok("")) ==> r.write.None? && r.notice == Silent)
    ensures user.None? ==> r.notice == Silent
    ensures r.write.Some? && !writeOk ==> r.notice == (if f.editing.Some? then UpdateFailed else CreateFailed)
    ensures r.write.Some? && writeOk && f.editing.Some? ==> r.notice == Updated
    ensures r.write.Some? && writeOk && f.editing.None? ==>
      r.notice == (if products == [] then FirstProductCreated else Created)
    ensures r.celebrate <==> r.write.Some? && r.write.value.InsertProduct? && writeOk && products == []
    ensures r.notice == FirstProductCreated <==> r.celebrate
    ensures r.write.Some? && writeOk <==> r.refetch
    ensures r.refetch ==> r.form == ClosedForm
    ensures !r.refetch ==> r.form == f
  {
    if user.None? then SubmitResult(None, Silent, false, false, f)
    else
      var existing := if f.editing.Some? then f.editing.value.imageUrl else None;
      var upload := if f.imageFile.Some? then Some(UploadImage(f.imageFile.value, ProductImageCap, true, storage)) else None;
      if upload.Some? && (upload.value.Url().None? || upload.value.Url().value == "") then
        var notice := match upload.value
          case Refused(_) => FileTooLarge
          case Sent(Err(_)) => UploadFailed
          case Sent(Ok(_)) => Silent;
        SubmitResult(None, notice, false, false, f)
      else
        var url := if upload.Some? then upload.value.Url() else existing;
        var data := ProductData(f.title, f.description, f.price, f.category, url, user.value);
        match f.editing
        case Some(p) =>
          if writeOk then SubmitResult(Some(UpdateProduct(p.id, data)), Updated, false, true, ClosedForm)
          else SubmitResult(Some(UpdateProduct(p.id, data)), UpdateFailed, false, false, f)
        case None =>
          var first := |products| == 0;
          if writeOk then SubmitResult(Some(InsertProduct(data)), if first then FirstProductCreated else Created, first, true, ClosedForm)
          else SubmitResult(Some(InsertProduct(data)), CreateFailed, false, false, f)
  }

  /** Editing a product and saving without choosing a file writes the
      product's own fields back to it, under the seller's id and with its
      image kept, then closes the form. */
  lemma EditThenSave(user: string, f: ProductForm, p: Product, products: seq<Product>, storage: Reply<string>)
    requires f.imageFile.None?
    ensures var r := HandleSubmit(Some(user), EditProduct(f, p), products, storage, true);
      && r.write == Some(UpdateProduct(p.id, ProductData(p.title, p.description, Some(p.price),
                           if p.category.Some? && p.category.value != "" then p.category.value else "Study Material",
                           p.imageUrl, user)))
      && r.notice == Updated && r.refetch && r.form == ClosedForm
  {
    var g := EditProduct(f, p);
    assert g.editing == Some(p) && g.imageFile.None?;
  }

  /** The first-product signal: of two otherwise identical successful
      creations, only the one made with an empty list celebrates. */
  lemma FirstProductOnlyOnce(user: string, f: ProductForm, p: Product, rest: seq<Product>, storage: Reply<string>)
    requires f.editing.None? && f.imageFile.None?
    ensures HandleSubmit(Some(user), f, [], storage, true).celebrate
    ensures HandleSubmit(Some(user), f, [], storage, true).notice == FirstProductCreated
    ensures !HandleSubmit(Some(user), f, [p] + rest, storage, true).celebrate
    ensures HandleSubmit(Some(user), f, [p] + rest, storage, true).notice == Created
  {
  }

  /** The toggle's notice after the write. */
  datatype ToggleNotice = StatusUpdateFailed | MarkedSold | MarkedAvailable

  /** `handleToggleSold`: writes the negated availability for this product
      and reports the change by the product's previous state. */
  function ToggleSold(p: Product, writeOk: bool): (r: (bool, ToggleNotice))
    ensures r.0 == !p.isAvailable
    ensures writeOk ==> (r.1 == MarkedSold <==> p.isAvailable)
    ensures !writeOk <==> r.1 == StatusUpdateFailed
  {
    (!p.isAvailable, if !writeOk then StatusUpdateFailed else if p.isAvailable then MarkedSold else MarkedAvailable)
  }

  /** Applied by the store, a toggle changes that product's availability
      and nothing else; toggling the refetched product again restores the
      list. */
  lemma ToggleSoldTwice(s: seq<Product>, i: int)
    requires UniqueIds(s) && 0 <= i < |s|
    ensures var s1 := SetAvailability(s, s[i].id, ToggleSold(s[i], true).0);
      && s1[i].isAvailable == !s[i].isAvailable
      && (forall j :: 0 <= j < |s| && j != i ==> s1[j] == s[j])
      && SetAvailability(s1, s1[i].id, ToggleSold(s1[i], true).0) == s
  {
    var s1 := SetAvailability(s, s[i].id, ToggleSold(s[i], true).0);
    var s2 := SetAvailability(s1, s1[i].id, ToggleSold(s1[i], true).0);
    assert forall j :: 0 <= j < |s| ==> s2[j] == s[j];
  }
}

=== FILE: seqs.dfy ===
/** Order-preservation facts about sequences shared by the list-narrowing passes. */
module Seqs {

  /** `a` can be obtained from `b` by deleting elements: every element of `a`
      comes from `b`, in the same relative order. */
  predicate IsSubsequence<T(==)>(a: seq<T>, b: seq<T>)
    decreases |b|
  {
    if b == [] then a == []
    else IsSubsequence(a, b[1..]) || (a != [] && a[0] == b[0] && IsSubsequence(a[1..], b[1..]))
  }

  /** Every sequence is a subsequence of itself. */
  lemma {:induction false} SubsequenceRefl<T>(s: seq<T>)
    ensures IsSubsequence(s, s)
  {
    if s != [] {
      SubsequenceRefl(s[1..]);
    }
  }

  /** Deleting in two rounds is deleting once. */
  lemma {:induction false} SubsequenceTrans<T>(a: seq<T>, b: seq<T>, c: seq<T>)
    requires IsSubsequence(a, b) && IsSubsequence(b, c)
    ensures IsSubsequence(a, c)
    decreases |c|
  {
    if c == [] {
    } else if IsSubsequence(b, c[1..]) {
      SubsequenceTrans(a, b, c[1..]);
    } else {
      assert b != [] && b[0] == c[0] && IsSubsequence(b[1..], c[1..]);
      if IsSubsequence(a, b[1..]) {
        SubsequenceTrans(a, b[1..], c[1..]);
      } else {
        SubsequenceTrans(a[1..], b[1..], c[1..]);
      }
    }
  }

  /** A subsequence fabricates nothing: it holds each value at most as often
      as the sequence it was taken from. */
  lemma {:induction false} SubsequenceMultiset<T>(a: seq<T>, b: seq<T>)
    requires IsSubsequence(a, b)
    ensures multiset(a) <= multiset(b)
    decreases |b|
  {
    if b == [] {
    } else if IsSubsequence(a, b[1..]) {
      SubsequenceMultiset(a, b[1..]);
      assert b == [b[0]] + b[1..];
    } else {
      SubsequenceMultiset(a[1..], b[1..]);
      assert a == [a[0]] + a[1..];
      assert b == [b[0]] + b[1..];
    }
  }
}

=== FILE: stable_sort.dfy ===
/** A stable sort by an integer key, the behaviour `Array.prototype.sort`
    must have since ECMAScript 2019 (ECMA-262 10th edition, section
    22.1.3.27): elements whose comparator result is zero keep their input
    order. */
module StableSort {

  predicate Sorted<T>(s: seq<T>, key: T -> int) {
    forall i, j :: 0 <= i < j < |s| ==> key(s[i]) <= key(s[j])
  }

  /** The elements of `s` whose key is `k`, in their order in `s`. */
  function WithKey<T>(s: seq<T>, key: T -> int, k: int): seq<T> {
    if s == [] then []
    else (if key(s[0]) == k then [s[0]] else []) + WithKey(s[1..], key, k)
  }

  /** Puts `x` in front of the first element whose key is not smaller. */
  function Insert<T>(x: T, s: seq<T>, key: T -> int): (r: seq<T>)
    requires Sorted(s, key)
    ensures |r| == |s| + 1
    ensures multiset(r) == multiset{x} + multiset(s)
    ensures r[0] == x || (s != [] && r[0] == s[0])
    ensures Sorted(r, key)
  {
    if s == [] || key(x) <= key(s[0]) then [x] + s
    else
      assert s == [s[0]] + s[1..];
      [s[0]] + Insert(x, s[1..], key)
  }

  /** Insertion sort: sorts the tail, then inserts the head in front of its
      equals. */
  function SortBy<T>(s: seq<T>, key: T -> int): (r: seq<T>)
    ensures multiset(r) == multiset(s)
    ensures Sorted(r, key)
  {
    if s == [] then []
    else
      assert s == [s[0]] + s[1..];
      Insert(s[0], SortBy(s[1..], key), key)
  }

  lemma WithKeyCons<T>(a: T, t: seq<T>, key: T -> int, k: int)
    ensures WithKey([a] + t, key, k) == (if key(a) == k then [a] else []) + WithKey(t, key, k)
  {
    assert ([a] + t)[0] == a && ([a] + t)[1..] == t;
  }

  lemma {:induction false} WithKeyInsert<T>(x: T, s: seq<T>, key: T -> int, k: int)
    requires Sorted(s, key)
    ensures WithKey(Insert(x, s, key), key, k) == (if key(x) == k then [x] else []) + WithKey(s, key, k)
  {
    if s == [] || key(x) <= key(s[0]) {
      WithKeyCons(x, s, key, k);
    } else {
      var tail := Insert(x, s[1..], key);
      WithKeyCons(s[0], tail, key, k);
      WithKeyInsert(x, s[1..], key, k);
      WithKeyCons(s[0], s[1..], key, k);
      assert s == [s[0]] + s[1..];
    }
  }

  /** Stability: for every key value, the elements carrying it come out in
      exactly the order they went in. */
  lemma {:induction false} SortByStable<T>(s: seq<T>, key: T -> int, k: int)
    ensures WithKey(SortBy(s, key), key, k) == WithKey(s, key, k)
  {
    if s != [] {
      SortByStable(s[1..], key, k);
      WithKeyInsert(s[0], SortBy(s[1..], key), key, k);
    }
  }
}

=== FILE: text.dfy ===
/** The three JavaScript string operations the pages rely on:
    `toLowerCase` (ASCII letters only), `includes` (substring search) and
    `trim` (ECMAScript WhiteSpace and LineTerminator code points). */
module Text {

  /** Lower-cases an ASCII capital letter; every other character is kept. */
  function LowerChar(c: char): (r: char)
    ensures 'A' <= c <= 'Z' ==> 'a' <= r <= 'z' && r as int == c as int + 32
    ensures !('A' <= c <= 'Z') ==> r == c
  {
    if 'A' <= c <= 'Z' then (c as int + 32) as char else c
  }

  /** `s.toLowerCase()`, restricted to the ASCII letters. */
  function Lower(s: string): (r: string)
    ensures |r| == |s|
    ensures forall i :: 0 <= i < |s| ==> r[i] == LowerChar(s[i])
  {
    if s == [] then [] else [LowerChar(s[0])] + Lower(s[1..])
  }

  /** `needle` occurs in `s` starting at index `i`. */
  ghost predicate OccursAt(s: string, needle: string, i: int) {
    0 <= i && i + |needle| <= |s| && s[i..i + |needle|] == needle
  }

  /** `s.includes(needle)`: tries every start position from the left. */
  predicate Includes(s: string, needle: string)
    decreases |s|
  {
    (|needle| <= |s| && s[..|needle|] == needle) || (s != [] && Includes(s[1..], needle))
  }

  lemma {:induction false} IncludesHasOccurrence(s: string, needle: string) returns (i: int)
    requires Includes(s, needle)
    ensures OccursAt(s, needle, i)
    decreases |s|
  {
    if |needle| <= |s| && s[..|needle|] == needle {
      i := 0;
    } else {
      var k := IncludesHasOccurrence(s[1..], needle);
      assert s[1..][k..k + |needle|] == s[k + 1..k + 1 + |needle|];
      i := k + 1;
    }
  }

  lemma {:induction false} OccurrenceGivesIncludes(s: string, needle: string, i: int)
    requires OccursAt(s, needle, i)
    ensures Includes(s, needle)
    decreases i
  {
    if i > 0 {
      assert s[1..][i - 1..i - 1 + |needle|] == s[i..i + |needle|];
      OccurrenceGivesIncludes(s[1..], needle, i - 1);
    }
  }

  /** `Includes` holds exactly when the needle occurs at some position;
      in particular the empty needle occurs in every string. */
  lemma IncludesIffOccurs(s: string, needle: string)
    ensures Includes(s, needle) <==> exists i :: OccursAt(s, needle, i)
  {
    if Includes(s, needle) {
      var i := IncludesHasOccurrence(s, needle);
    }
    if exists i :: OccursAt(s, needle, i) {
      var i :| OccursAt(s, needle, i);
      OccurrenceGivesIncludes(s, needle, i);
    }
  }

  /** The characters `String.prototype.trim` removes: the ECMAScript
      WhiteSpace code points (TAB, VT, FF, SP, NBSP, ZWNBSP and the Zs
      category) and the LineTerminator code points (LF, CR, LS, PS). */
  predicate IsSpace(c: char) {
    c == '\t' || c == '\U{000B}' || c == '\U{000C}' || c == ' ' || c == '\U{00A0}' || c == '\U{FEFF}'
    || c == '\U{1680}' || ('\U{2000}' <= c <= '\U{200A}') || c == '\U{202F}' || c == '\U{205F}' || c == '\U{3000}'
    || c == '\n' || c == '\r' || c == '\U{2028}' || c == '\U{2029}'
  }

  ghost predicate AllSpace(s: string) {
    forall i :: 0 <= i < |s| ==> IsSpace(s[i])
  }

  /** Index of the first non-space character at or after `from`, or `|s|`. */
  function SkipSpaces(s: string, from: nat): (i: nat)
    requires from <= |s|
    ensures from <= i <= |s|
    ensures forall k :: from <= k < i ==> IsSpace(s[k])
    ensures i < |s| ==> !IsSpace(s[i])
    decreases |s| - from
  {
    if from == |s| || !IsSpace(s[from]) then from else SkipSpaces(s, from + 1)
  }

  /** One past the last non-space character before `upto`, or `lo`. */
  function DropSpaces(s: string, lo: nat, upto: nat): (j: nat)
    requires lo <= upto <= |s|
    ensures lo <= j <= upto
    ensures forall k :: j <= k < upto ==> IsSpace(s[k])
    ensures j > lo ==> !IsSpace(s[j - 1])
    decreases upto
  {
    if upto == lo || !IsSpace(s[upto - 1]) then upto else DropSpaces(s, lo, upto - 1)
  }

  lemma TrimmedSlice(s: string, i: nat, j: nat)
    requires i == SkipSpaces(s, 0) && j == DropSpaces(s, i, |s|)
    ensures AllSpace(s[..i]) && AllSpace(s[j..])
    ensures s[i..j] == [] <==> AllSpace(s)
  {
    if j == i {
      assert s == s[..i] + s[j..];
    } else {
      assert !IsSpace(s[i]);
    }
  }

  /** `s.trim()`: the middle of `s` left after removing the leading and the
      trailing run of spaces. */
  function Trim(s: string): (r: string)
    ensures |r| <= |s|
    ensures r == [] <==> AllSpace(s)
    ensures r != [] ==> !IsSpace(r[0]) && !IsSpace(r[|r| - 1])
    ensures exists i, j :: 0 <= i <= j <= |s| && r == s[i..j]
                           && AllSpace(s[..i]) && AllSpace(s[j..])
  {
    var i := SkipSpaces(s, 0);
    var j := DropSpaces(s, i, |s|);
    TrimmedSlice(s, i, j);
    s[i..j]
  }
}

=== FILE: theme.dfy ===
/** The two-state colour theme: its default, the value restored from
    storage on mount, the class put on the document root, and the toggle. */
module Theme {
  import opened Wrappers

  /** The theme names. The restored value is not validated, so the state
      holds a string rather than one of the two names. */
  const Dark := "dark"
  const Saffron := "saffron"

  /** The provider's state: the theme, the stored value, and the root
      element's class list. */
  datatype ThemeState = ThemeState(theme: string, saved: Option<string>, rootClasses: set<string>)

  /** `applyTheme`: drops both theme classes, then adds the new one. */
  function ApplyTheme(root: set<string>, t: string): (r: set<string>)
    ensures t in r
    ensures Dark in r <==> t == Dark
    ensures Saffron in r <==> t == Saffron
    ensures forall c :: c != t && c != Dark && c != Saffron ==> (c in r <==> c in root)
    ensures t == Dark || t == Saffron ==> (Dark in r) != (Saffron in r)
  {
    root - {Dark, Saffron} + {t}
  }

  /** The first render, before the mount effect runs. */
  function Initial(saved: Option<string>, root: set<string>): (s: ThemeState)
    ensures s.theme == "dark"
  {
    ThemeState(Dark, saved, root)
  }

  /** The characters `classList.add` rejects inside a token: the ASCII
      whitespace of the DOM standard (tab, line feed, form feed, carriage
      return, space). */
  predicate IsAsciiWhitespace(c: char) {
    c == '\t' || c == '\n' || c == '\U{000C}' || c == '\r' || c == ' '
  }

  /** A string `classList.add` accepts: non-empty and free of ASCII
      whitespace. */
  predicate IsToken(t: string) {
    t != "" && forall i :: 0 <= i < |t| ==> !IsAsciiWhitespace(t[i])
  }

  /** The mount effect's outcome: the state it leaves, and whether
      `applyTheme` threw. */
  datatype Restored = Restored(state: ThemeState, threw: bool)

  /** The mount effect: a stored value other than the empty string is
      adopted as it is and applied. Applying removes both theme classes
      first, so a stored value that is not a token leaves the root with
      neither theme class when `classList.add` throws. */
  function Restore(s: ThemeState): (r: Restored)
    ensures s.saved.Some? && s.saved.value != "" ==> r.state.theme == s.saved.value && r.state.saved == s.saved
    ensures s.saved.Some? && s.saved.value != "" ==> (r.threw <==> !IsToken(s.saved.value))
    ensures s.saved.Some? && !r.threw && s.saved.value != "" ==>
      r.state.rootClasses == ApplyTheme(s.rootClasses, s.saved.value)
    ensures r.threw ==> r.state.rootClasses == s.rootClasses - {Dark, Saffron}
    ensures !(s.saved.Some? && s.saved.value != "") ==> r == Restored(s, false)
  {
    match s.saved
    case Some(t) =>
      if t == "" then Restored(s, false)
      else if IsToken(t) then Restored(s.(theme := t, rootClasses := ApplyTheme(s.rootClasses, t)), false)
      else Restored(s.(theme := t, rootClasses := s.rootClasses - {Dark, Saffron}), true)
    case None => Restored(s, false)
  }

  /** `theme === "dark" ? "saffron" : "dark"`. */
  function Next(t: string): (r: string)
    ensures r == Dark || r == Saffron
    ensures t == Dark <==> r == Saffron
  {
    if t == Dark then Saffron else Dark
  }

  /** `toggleTheme`: switches, stores and applies the new theme. */
  function Toggle(s: ThemeState): (r: ThemeState)
    ensures r.saved == Some(r.theme)
    ensures r.rootClasses == ApplyTheme(s.rootClasses, r.theme)
    ensures r.theme != s.theme
  {
    var t := Next(s.theme);
    ThemeState(t, Some(t), ApplyTheme(s.rootClasses, t))
  }

  /** On the two real themes the toggle is an involution; any other restored
      value is left for dark on the first toggle. */
  lemma ToggleTwice(s: ThemeState)
    ensures s.theme == Dark || s.theme == Saffron ==> Toggle(Toggle(s)).theme == s.theme
    ensures s.theme != Dark && s.theme != Saffron ==> Toggle(s).theme == Dark
  {
  }

  /** After a toggle the root carries exactly one theme class, the new one. */
  lemma ToggleLeavesOneThemeClass(s: ThemeState)
    ensures var r := Toggle(s); (Dark in r.rootClasses) != (Saffron in r.rootClasses) && r.theme in r.rootClasses
  {
  }

  /** What a toggle stores, the next mount restores: on any fresh root the
      restored theme is the toggled one, applied without a throw. */
  lemma SaveThenRestore(s: ThemeState, root: set<string>)
    ensures var t := Toggle(s);
            var r := Restore(Initial(t.saved, root));
            && !r.threw && r.state.theme == t.theme
            && r.state.rootClasses == ApplyTheme(root, t.theme)
  {
    assert IsToken(Dark) && IsToken(Saffron);
  }

  /** A stored value carrying whitespace is adopted but leaves the root with
      neither theme class. */
  lemma SpacedValueStripsThemeClasses(root: set<string>)
    ensures var r := Restore(Initial(Some("dark "), root));
            && r.threw && r.state.theme == "dark "
            && Dark !in r.state.rootClasses && Saffron !in r.state.rootClasses
  {
    assert !IsToken("dark ") by { assert IsAsciiWhitespace("dark "[4]); }
  }
}

=== FILE: wrappers.dfy ===
/** Shared failure-carrying datatypes. Every call the application makes to its
    hosted backend (queries, writes, storage uploads, sign-in) is replaced by a
    value of one of these types supplied by the caller of the model. */
module Wrappers {

  /** A value that may be absent: JavaScript's `null` / `undefined`. */
  datatype Option<+T> = None | Some(value: T) {

    /** The value when present, otherwise the given default (`x ?? d`). */
    function GetOr(default: T): T {
      match this
      case Some(v) => v
      case None => default
    }
  }

  /** The answer of one backend call: its data, or the error it reported. */
  datatype Reply<+T> = Ok(value: T) | Err(message: string) {

    /** The data of a successful call, or `None` when the call failed
        (the `data` half of `{ data, error }`). */
    function Data(): Option<T> {
      match this
      case Ok(v) => Some(v)
      case Err(_) => None
    }
  }
}
